=== FILE: README.md ===
# Request binding and response matching in aiopenapi3

This project models, in Dafny, how aiopenapi3 turns one call of an OpenAPI
operation into an HTTP request, and how it matches the response that comes
back. The same logic exists in three generations of the library, and each is
modelled on its own:

- `aiopenapi3/v20/glue.py` is the Swagger 2.0 `Request` (module `Glue`). It
  applies security, then parameters, then the body. Parameters are merged and
  routed, and the path template is formatted once. The body goes through a
  hook pipeline. The response is matched by status and decoded through a
  second hook pipeline.
- `openapi3/paths.py` is `Operation.request` of the OpenAPI 3 client (module
  `Openapi3`). It applies security, then the body, then the parameters. The
  response is matched by status and then by media type, with `type/*` range
  fallback.
- `openapi/paths.py` is the earlier OpenAPI 3 client (module
  `OpenapiLegacy`). It pops one credential, supports a bearer header only, has
  an optional JSON body and binds no parameters.

The shared parts sit in modules of their own:

- `Objects`: the document objects the binder reads, including the load-time
  rule that path parameters are required and the security-requirement shape
  check.
- `Templates`: path templates as literal and field segments, with Python's
  `str.format` as a `Result`.
- `Parameters`: parameter merging with `dict.update` semantics, and routing.
- `Security`: the first-match selection of a security requirement.
- `Responses`: status and media-type matching, and the decode pipeline.
- `Text` and `Base`: text, decimal and `Result` helpers.

Caller credentials are an ordered sequence of (scheme name, value), so "first
in caller order" and `popitem` can both be expressed. Each Python exception
becomes a named `Error` value.

The model follows the code wherever the code does something other than a
reader of the OpenAPI documents would expect:

- On a name clash, a path-level parameter replaces the operation-level one,
  because the later `dict.update` wins. See `Glue.PathLevelOverrides` and
  `Parameters.LaterListWins`.
- The OpenAPI 3 media-type lookup keeps `;charset=…`. A JSON response that
  carries parameters is never decoded there. See
  `Responses.CharsetNotStripped` and `Openapi3.MediaTypeParametersNeverDecode`.
- Only the Swagger 2.0 client treats 204 specially. See
  `Openapi3.NoContentIsNotSpecial`.
- In the Swagger 2.0 client, `None` data for an operation with a body
  parameter is always an error, even when the body is not required. See
  `Glue.NoDataWithBodyParameterFails`.

The model departs from the code in two places, both listed under
"## Findings". In each, the code as written is modelled by its own member, with
a lemma that shows an input where it goes wrong. The whole-request members use
the corrected half instead:

- `Openapi3.Prepare` binds parameters with `Openapi3.PrepareParameters`. It
  formats the path once from all path values. The loop as written is
  `Openapi3.BindAsWritten`.
- `OpenapiLegacy.Prepare` applies schemes with `OpenapiLegacy.ApplyScheme`.
  The chain as written is `OpenapiLegacy.ApplySchemeAsWritten`.

## Model

| member | source | states |
|---|---|---|
| Objects.ParseLocation | openapi3/paths.py:64 | a tag is routed nowhere (`InOther`) exactly when it is none of the five known locations, and is a path location exactly when it is `path` |
| Objects.LocationTagRoundTrip | openapi3/paths.py:64 | reading a location tag and writing it back gives the same tag |
| Objects.ParseParameter | openapi3/paths.py:74-77 | loading fails with SpecError exactly when the location is `path` and `required` is not literally true; otherwise name, schema and location are kept and `required` is true exactly when given as true |
| Objects.LoadedPathParameterIsRequired | openapi/paths.py:69-72 | every path parameter that survives loading is required |
| Objects.CanParse | openapi3/paths.py:300-306 | a mapping is accepted exactly when it has one key and that key's value is a list |
| Objects.ParseRequirement | openapi3/paths.py:293-298 | a requirement is parsed exactly when the mapping has one key whose value is a list of strings; it is named by that key and its scopes are those strings, in order |
| Objects.ParsedRequirementRoundTrip | openapi3/paths.py:293-309 | writing out a parsed requirement gives back the mapping it was parsed from |
| Objects.RequirementItems | openapi3/paths.py:308-309 | writing a requirement out gives a mapping the shape check accepts |
| Objects.RequirementRoundTrip | openapi/paths.py:172-188 | writing a requirement out and parsing it back gives the same requirement |
| Objects.ParseScheme | openapi3/paths.py:169-195 | a scheme is kept as an unknown type exactly when its `type` is none of those the clients test for; an apiKey scheme keeps `in` and `name`, an http scheme keeps `scheme` and `bearerFormat` |
| Objects.ParseSchemeKeepsType | aiopenapi3/v20/glue.py:64-67 | a scheme read from a `type` reports that type and never holds a known type as unknown |
| Objects.SchemeRoundTrip | openapi/paths.py:137-151 | every scheme that could have been read is what reading its written-out fields gives |
| Templates.Format | aiopenapi3/v20/glue.py:112 | formatting succeeds exactly when every field name is a supplied key; a failure names a field that is missing; the text is the template with each field replaced by its value; a template without fields formats to its own text |
| Templates.FormatPlacesValue | aiopenapi3/v20/glue.py:112 | a path with one field between two literal parts formats to the first part, the value, then the second part |
| Templates.FormatLeavesNoBraces | aiopenapi3/v20/glue.py:97-112 | with every field supplied, and neither the template text nor the values holding braces, the result has no `{` or `}` |
| Templates.FormatReadsOnlyItsFields | aiopenapi3/v20/glue.py:112 | two argument maps that agree on the template's fields format it the same way, so extra keys are ignored |
| Templates.FormatPositional | openapi3/paths.py:175 | formatting with one positional value succeeds exactly when there is at most one `{}`, `{}` and `{0}` are not mixed, and no other field is named; the text is the template with every such field replaced by the value |
| Templates.PositionalPlacesValue | openapi3/paths.py:175 | one `{}` between two literal parts formats to the first part, the value, then the second part |
| Templates.DefaultBearerHeader | openapi3/paths.py:174-175 | the default format gives `Bearer ` followed by the token (section 2.1 of RFC 6750) |
| Text.StatusString | aiopenapi3/v20/glue.py:159 | the status text is never empty and starts with `-` or a digit, as `str` of an integer does |
| Text.DecimalRoundTrip | aiopenapi3/v20/glue.py:159 | reading the decimal text of a code back gives the code |
| Text.StatusStringInjective | openapi3/paths.py:247 | two different codes never have the same status text, so one declared entry cannot answer another code |
| Text.StatusNeverDefault | aiopenapi3/v20/glue.py:163-166 | no status text equals `default`, so the fallback entry is never hit as an exact match |
| Parameters.Upsert | aiopenapi3/v20/glue.py:87 | storing one parameter by name keeps names unique and adds its name; the new entry is stored, entries of other names are kept and no other entry is added |
| Parameters.Merge | aiopenapi3/v20/glue.py:85-87 | merging keeps one entry per name, the same set of names, and each kept entry is the last one of that name in the input |
| Parameters.LaterListWins | openapi3/paths.py:214-217 | the last entry of a name in the second list is kept after merging both lists, and is the only kept entry of that name |
| Parameters.RouteFailsIffRequiredMissing | aiopenapi3/v20/glue.py:89-93 | the routing loop fails exactly when a required parameter has no value, and then names a parameter without a value |
| Parameters.RoutePlacesValues | aiopenapi3/v20/glue.py:103-110 | after routing, each query (and, with a cookie map, header and cookie) map holds the earlier entries overwritten by exactly the supplied values of that location |
| Parameters.RouteCollectsPathValues | aiopenapi3/v20/glue.py:97-101 | the collected path values are exactly the supplied values of path parameters |
| Parameters.RouteIgnoresUnknownNames | aiopenapi3/v20/glue.py:89-95 | values under names no accepted parameter has make no difference to routing |
| Parameters.RouteCookiePlacementIrrelevant | openapi3/paths.py:236-237 | without a supplied cookie parameter, writing cookies to the `Cookie` header or to the cookie map routes identically |
| Parameters.BindCollectedSpec | aiopenapi3/v20/glue.py:79-112 | binding succeeds exactly when every required parameter and every path field is supplied; the path becomes plain text formatted once from all path values; query values are in place; authentication, certificate and body are kept |
| Security.FirstNamed | openapi/paths.py:126-129 | the index found is the first requirement with that name, and there is none exactly when no requirement has it |
| Security.FirstMatch | aiopenapi3/v20/glue.py:46-52 | the index found is the first credential whose key names a requirement; there is none exactly when no key does |
| Security.Select | openapi3/paths.py:152-161 | nothing is selected exactly when no credential names a requirement; otherwise the selection is the first requirement of the name of the first matching credential, with that credential's value |
| Security.FirstMatchSkipsUnmatched | aiopenapi3/v20/glue.py:46-52 | unmatched credentials put in front shift the index of the first match by their number |
| Security.SelectSkipsUnmatched | aiopenapi3/v20/glue.py:46-52 | credentials naming no requirement, put in front, do not change the selection |
| Security.SelectFirstWins | openapi3/paths.py:152-161 | a first credential that names a requirement is the one selected, whatever follows |
| Responses.MatchStatus | openapi3/paths.py:247-260 | a response is found exactly when the status text or `default` is declared; the exact entry wins over `default`; otherwise the error carries the status text |
| Responses.DefaultOnlyForUndeclared | aiopenapi3/v20/glue.py:163-166 | `default` answers exactly the codes without an entry, and an entry answers no other code |
| Responses.StatusScenario | openapi3/paths.py:251-254 | with `200` and `default` declared, 404 takes `default` and 200 takes its own entry |
| Responses.IsJsonMediaTypeMeans | aiopenapi3/v20/glue.py:180 | `application/json` followed by nothing or by `;` parameters passes the JSON test and any other continuation fails; letter case does not matter |
| Responses.LookupMedia | openapi3/paths.py:262-277 | the exact media type wins; otherwise, when the header has `/`, its `type/*` range is tried; the lookup fails exactly when neither is declared |
| Responses.MediaRange | openapi3/paths.py:270 | the range ends in `/*` and starts with the part of the header before its first slash, which holds no slash |
| Responses.MediaRangeOfType | openapi3/paths.py:270 | the range of `type/anything` is `type/*` |
| Responses.RangeScenario | openapi3/paths.py:265-271 | `text/plain` finds a `text/*` entry |
| Responses.CharsetNotStripped | openapi3/paths.py:262-273 | `application/json; charset=utf-8` does not find an `application/json` entry |
| Responses.DecodeBody | aiopenapi3/v20/glue.py:181-188 | the decode succeeds exactly when the received text parses, the schema is present and the model layer accepts the parsed value; an unparsable text is MalformedJson, and only it; a parsed text without a schema faults; a value the model layer rejects is SchemaViolation; a success is the `unmarshalled` hook applied to the model built from the `parsed` hook's value |
| Glue.BodySchema | aiopenapi3/v20/glue.py:18-22 | the body schema is absent exactly when no parameter is in the body, and otherwise is the schema of the first body parameter |
| Glue.ApplyScheme | aiopenapi3/v20/glue.py:58-77 | an undefined scheme fails; `basic` sets the auth; apiKey writes its value under the wire name into the query or the headers, or makes it the only cookie; nothing else changes |
| Glue.PrepareSecurity | aiopenapi3/v20/glue.py:39-56 | without credentials or requirements nothing happens; otherwise the first credential naming a requirement is applied, and none naming one is an error |
| Glue.EmptySecurityIgnoresCredentials | aiopenapi3/v20/glue.py:40-41 | an explicitly empty operation list applies nothing and raises nothing, whatever the credentials |
| Glue.ApiKeyScenario | aiopenapi3/v20/glue.py:67-70 | one apiKey credential for a query scheme yields exactly one query entry and nothing else |
| Glue.BodyParametersNotAccepted | aiopenapi3/v20/glue.py:83 | no accepted parameter is in the body, and every accepted one is declared by the operation or the path item |
| Glue.PathLevelOverrides | aiopenapi3/v20/glue.py:83-87 | the last path-level entry of a name is accepted and replaces any operation-level entry of that name |
| Glue.PrepareParameters | aiopenapi3/v20/glue.py:79-112 | succeeds exactly when required parameters and path fields are supplied; the path is formatted once; query, header and cookie values are in place; auth, certificate and body are kept |
| Glue.UnknownParametersIgnored | aiopenapi3/v20/glue.py:89 | dropping values the operation does not accept changes nothing |
| Glue.AsJson | aiopenapi3/v20/glue.py:124-129 | dict, list and model data are accepted as JSON; anything else, `None` included, is a TypeError |
| Glue.PrepareBody | aiopenapi3/v20/glue.py:114-139 | without a body parameter nothing changes; with one, the body is sent exactly when `consumes` has `application/json` and the data is a dict, list or model; required and absent data is MissingBody; other data under JSON is a TypeError; a non-JSON `consumes` is not implemented; a sent body is the encoded data with Content-Type set |
| Glue.NoDataWithBodyParameterFails | aiopenapi3/v20/glue.py:120-129 | with a body parameter, no data always fails |
| Glue.EmptySecurityPreparesUnauthenticated | aiopenapi3/v20/glue.py:141-144 | with an explicitly empty operation list the credentials make no difference and no authentication is set |
| Glue.BodyContentTypeWins | aiopenapi3/v20/glue.py:141-144 | the body runs last, so Content-Type is `application/json` whatever the header parameters say |
| Glue.Prepare | aiopenapi3/v20/glue.py:141-144 | security, then parameters, then body: the first step that fails decides the error, and otherwise the body step's result on the bound request is the prepared request |
| Glue.PreparedPathHasNoPlaceholders | aiopenapi3/v20/glue.py:112 | with all path fields supplied and no braces brought in, the prepared path is plain text without braces |
| Glue.Process | aiopenapi3/v20/glue.py:157-191 | an undeclared status fails; a declared 204 returns nothing; a missing Content-Type faults; a JSON Content-Type gives the decode pipeline's result against the matched response's schema; any other Content-Type is not implemented |
| Glue.NoContentAfterStatusMatch | aiopenapi3/v20/glue.py:163-176 | a 204 returns nothing exactly when it is declared or `default` exists |
| Glue.EchoRoundTrip | aiopenapi3/v20/glue.py:130-189 | with identity hooks and a codec whose parse undoes its dump, a sent body echoed back as JSON decodes to the caller's data |
| Openapi3.ApplyScheme | openapi3/paths.py:167-196 | http basic, digest and mutualTLS set auth or certificate; bearer sets Authorization from the format; other http schemes, OAuth2 and OpenID Connect are not implemented; an apiKey in a cookie and unknown types change nothing |
| Openapi3.DefaultBearerScenario | openapi3/paths.py:173-175 | a bearer scheme without a format sends `Bearer <token>` and changes nothing else |
| Openapi3.PrepareSecurity | openapi3/paths.py:147-165 | only the operation's list is consulted; the first credential naming a requirement is applied; none naming one is an error |
| Openapi3.NonNullFields | openapi3/paths.py:208 | the fields kept are exactly those whose value is not None; a single field is kept exactly when its value is not None |
| Openapi3.NonNullFieldsConcat | openapi3/paths.py:208 | filtering a concatenation is concatenating the filtered parts, so each kept field appears once, in field order |
| Openapi3.PrepareBody | openapi3/paths.py:198-211 | required and absent data fails; a request body without JSON content is not implemented; otherwise Content-Type is set and only a dict or model becomes the body |
| Openapi3.ModelBodyRoundTrip | openapi3/paths.py:205-208 | the body sent for a model parses back to an object holding exactly the model's non-None fields |
| Openapi3.ListBodyDropped | openapi3/paths.py:202-209 | a list is accepted and not sent |
| Openapi3.BindAsWritten | openapi3/paths.py:214-237 | the loop as written succeeds only when all required parameters are supplied, and keeps auth, certificate, body and cookies |
| Openapi3.TwoPathParametersRejected | openapi3/paths.py:228-231 | with two path fields both supplied, the loop as written fails on the second field while one format of all values gives the intended path |
| Openapi3.NoPathParameterKeepsPath | openapi3/paths.py:219-231 | with no path parameter declared, the loop as written succeeds once required values are supplied and leaves the path untouched |
| Openapi3.UndeclaredFieldSentLiterally | openapi3/paths.py:219-238 | a path field no parameter declares is sent unformatted by the loop as written, while one format of all path values rejects it with KeyError |
| Openapi3.PrepareParameters | openapi3/paths.py:214-237 | succeeds exactly when required parameters and path fields are supplied; the path is formatted once; query values are in place; auth, certificate and body are kept |
| Openapi3.HeadersPlaced | openapi3/paths.py:234-235 | without cookie parameters, supplied header values overwrite the headers set earlier |
| Openapi3.Prepare | openapi3/paths.py:121-237 | security, then body, then parameters: the first step that fails decides the error, and otherwise the parameter step's result on the request with its body is the prepared request |
| Openapi3.HeaderParameterOverridesContentType | openapi3/paths.py:209-235 | parameters run after the body, so a header parameter `Content-Type` replaces `application/json` |
| Openapi3.Process | openapi3/paths.py:247-284 | status must match; a missing Content-Type header fails; an undeclared media type fails; a found media type is not implemented unless the header equals `application/json` up to case; then a media entry without a schema faults and otherwise the result is the decoded value, without hooks; the result is never empty |
| Openapi3.NoContentIsNotSpecial | openapi3/paths.py:247-262 | a declared 204 without Content-Type is an error |
| Openapi3.MediaTypeParametersNeverDecode | openapi3/paths.py:281-284 | `application/json` followed by anything is never decoded |
| Openapi3.DecodesDeclaredJson | openapi3/paths.py:262-282 | a declared JSON response the codec parses and the schema accepts decodes to its value |
| OpenapiLegacy.PopItem | openapi/paths.py:124 | the popped entry is the last one, and the rest is what precedes it |
| OpenapiLegacy.ApplySchemeAsWritten | openapi/paths.py:135-152 | bearer sets Authorization; http basic and digest, apiKey and OAuth2 are not implemented; other http schemes change nothing; every other type faults |
| OpenapiLegacy.ApplyScheme | openapi/paths.py:137-152 | the intended dispatch never faults, rejects OpenID Connect as not implemented, ignores unnamed types and otherwise agrees with the code as written |
| OpenapiLegacy.MisspeltNameFaults | openapi/paths.py:151 | for OpenID Connect and for unnamed types, the code as written faults where the intended code does not |
| OpenapiLegacy.Secure | openapi/paths.py:123-135 | a missing operation list faults; a credential naming no requirement is an error; otherwise its scheme is applied |
| OpenapiLegacy.PrepareBody | openapi/paths.py:154-161 | only required and absent data fails; only a dict with JSON content produces a body and Content-Type; otherwise nothing changes |
| OpenapiLegacy.Prepare | openapi/paths.py:103-163 | the path is sent unformatted with no query or cookie; with credentials, the last one is popped and goes through the security step, whose error is the call's error, then the body step; the caller keeps the rest of the credentials |
| OpenapiLegacy.UnmatchedCredentialFails | openapi/paths.py:123-133 | a popped credential that names no requirement fails the call, whatever precedes it |
| OpenapiLegacy.OnlyLastCredentialCounts | openapi/paths.py:123-124 | entries before the last credential do not change the request |
| OpenapiLegacy.BearerScenario | openapi/paths.py:137-142 | a lone bearer credential yields exactly the `Authorization: Bearer <token>` header |

## Left out

- HTTP transport is left out: the `requests` and `httpx` calls, `_build_req`, URL joining with the base URL, and `urlencode` of the query. The model stops at the bound request record.
- `json.dumps`, `json.loads`, `str.encode`, the transport's text decoding and the pydantic or `Model` construction are not modelled. They are fields of a `Codec` record, and properties about them are stated under explicit assumptions.
- The plugin hooks are modelled as plain functions in a `Hooks` record, not as the plugin registry.
- The `default=converter` argument used for nested models is not modelled, because serialisation is abstract.
- `Lower` folds ASCII letters only. Python's Unicode case mapping is not modelled.
- Header maps are plain maps. `requests` and `httpx` compare header names without regard to case, and that is not modelled.
- Templates.Format: the path is kept as parsed segments. A brace inside a substituted value is not parsed again, which the per-parameter format in `openapi3/paths.py` would do. Escaped braces `{{` and format specs are not modelled.
- Glue.PrepareSecurity: a credential list with no match is modelled as UnsatisfiedSecurity. The source fails with whatever its `.keys()` call on a list raises; that is another exception type, but still a failure.
- Openapi3.PrepareSecurity: the same simplification applies to the `.keys()` call in `openapi3/paths.py`.
- Openapi3.PrepareParameters: the per-parameter format loop as written is not what this member does. It formats the path once from all path values. The loop as written, `Openapi3.BindAsWritten`, fails on a path with two fields and sends a field that no parameter declares unformatted; see "## Findings".
- Openapi3.Prepare: it inherits the corrected parameter step above, so the request it promises is the intended one, not the one the loop as written sends.
- OpenapiLegacy.Prepare: it uses the corrected scheme dispatch. As written, an OpenID Connect scheme, or any scheme type the chain does not name, raises NameError; see "## Findings".
- Openapi3.PrepareParameters: the contract states the header map only through `HeadersPlaced`, that is, when no cookie parameter is supplied. A cookie value overwrites the `Cookie` header, and no lemma spells that out.
- Error messages and exception classes are collapsed into the `Error` datatype.
- The parsing scaffolding of Path, Operation, RequestBody, MediaType and Response is not modelled. Loaded objects are given directly.
- Under `openapi3/paths.py` an absent `security` or `parameters` becomes an empty list on load. Its Operation holds plain sequences, so that default is built in.
- `AsyncRequest` is a concurrency wrapper and is not modelled.
- The thin getters `args`, `return_value` and `parameters` in `aiopenapi3/v20/glue.py` are not modelled.
- Authentication objects and client certificates are opaque tagged values.

## Findings

| source | as written | input that shows it | evidently intended | confidence | as-written member | corrected member |
|---|---|---|---|---|---|---|
| openapi3/paths.py:231 | each path value is substituted by its own `path.format(**{name: value})`, which raises KeyError on any other field still in the path | path `/{a}/{b}` with required path parameters `a` and `b`, both supplied | fill all fields from all collected path values in one format, as `aiopenapi3/v20/glue.py:112` does | not executed | Openapi3.TwoPathParametersRejected | Openapi3.PrepareParameters |
| openapi3/paths.py:227-231 | the path is formatted only inside the branch for a supplied path parameter, so a path field that no parameter declares is never formatted and goes out in the URL as `{id}` | path `/{id}` and no parameter named `id` | fail with KeyError, as one format of all path values in `aiopenapi3/v20/glue.py:112` does | not executed | Openapi3.UndeclaredFieldSentLiterally | Openapi3.PrepareParameters |
| openapi/paths.py:151 | the branch for `openIdConnect` tests the misspelt `secutity_scheme`, so it raises NameError for every scheme type other than `http`, `apiKey` and `oauth2` | a requirement whose scheme has type `openIdConnect`, or any other type such as `basic` | OpenID Connect raises NotImplementedError like OAuth2, and other types fall through unchanged | not executed | OpenapiLegacy.MisspeltNameFaults | OpenapiLegacy.ApplyScheme |

=== FILE: base.dfy ===
/** Failure-compatible wrappers, the error taxonomy of the binding engine, and the
    abstract JSON value that request and response bodies are made of. */
module Base {

  /** An optional value; `None` stands for Python's `None`. */
  datatype Option<+T> = None | Some(value: T) {
    function GetOr(default: T): T {
      match this
      case Some(v) => v
      case None => default
    }
  }

  /** Every way a binding step can fail. Python raises different exception
      classes for these (ValueError, TypeError, KeyError, NotImplementedError,
      SpecError, ...); the model keeps one tag per cause. */
  datatype Error =
    | SpecError                            // a Parameter Object rejected at load time
    | MissingParameter(name: string)       // a required parameter the caller did not supply
    | UnresolvedPlaceholder(name: string)  // `str.format` raised KeyError for this field name
    | BadFormatString                      // `str.format` raised IndexError or ValueError
    | UnsatisfiedSecurity                  // credentials given, but none names a requirement
    | UndefinedScheme(name: string)        // a requirement names no declared security scheme
    | UnsupportedScheme                    // NotImplementedError on a security scheme
    | MissingBody                          // a required request body was not given
    | TypeMismatch                         // body data of a kind the encoder refuses
    | UnsupportedContentType               // NotImplementedError on a media type
    | UnexpectedStatus(status: string)     // no response declared for the status, no default
    | UnexpectedContentType(contentType: string)
    | MalformedJson                        // `json.loads` failed
    | SchemaViolation                      // the data-model layer refused the value
    | RuntimeFault                         // AttributeError/TypeError/NameError in the source

  datatype Result<+T> = Ok(value: T) | Err(error: Error) {
    predicate IsFailure() {
      Err?
    }

    function PropagateFailure<U>(): Result<U>
      requires Err?
    {
      Err(error)
    }

    function Extract(): T
      requires Ok?
    {
      value
    }
  }

  /** A caller-supplied value (parameter value or credential), in its rendered form. */
  type Value = string

  type Bytes = seq<bv8>

  /** A JSON document; a Python `None` inside a structure is `JNull`. */
  datatype Json =
    | JNull
    | JBool(b: bool)
    | JNumber(n: int)
    | JString(s: string)
    | JArray(items: seq<Json>)
    | JObject(members: seq<(string, Json)>)
}

=== FILE: glue.dfy ===
/** The Swagger 2.0 request of aiopenapi3 (`aiopenapi3/v20/glue.py`, class
    `Request`): security, then parameters, then body, applied to a fresh request;
    and the response matched by status and decoded through the hook pipeline. */
module Glue {
  import opened Base
  import opened Text
  import opened Templates
  import opened Objects
  import opened Parameters
  import opened Security
  import opened Responses

  /** A Swagger 2.0 Response Object: its schema, absent for a response that
      declares none. */
  datatype Response = Response(schema: Option<Schema>)

  /** The parts of a Swagger 2.0 Operation Object the request reads. `security`
      is None when the operation does not declare the field. */
  datatype Operation = Operation(
    operationId: string,
    parameters: seq<Parameter>,
    security: Option<seq<SecurityRequirement>>,
    consumes: seq<string>,
    responses: map<string, Response>)

  /** What a request reads besides the caller's arguments: the operation, the
      path item's parameters and template, the document's root `security` and
      `securityDefinitions`, the client's hooks and codec. */
  datatype Request = Request(
    op: Operation,
    pathParameters: seq<Parameter>,
    path: Template,
    rootSecurity: seq<SecurityRequirement>,
    definitions: map<string, SecurityScheme>,
    hooks: Hooks,
    codec: Codec)

  /** The `data` property: the schema of the operation's first body parameter;
      None stands for the ValueError the property raises when there is none. */
  function BodySchema(params: seq<Parameter>): (r: Option<Schema>)
    ensures r.None? <==> forall i :: 0 <= i < |params| ==> params[i].loc != InBody
    ensures r.Some? ==> exists i :: 0 <= i < |params| && params[i].loc == InBody && params[i].schema == r.value
                                    && forall j :: 0 <= j < i ==> params[j].loc != InBody
  {
    if params == [] then None
    else if params[0].loc == InBody then Some(params[0].schema)
    else
      assert forall i :: 0 < i < |params| ==> params[i] == params[1..][i - 1];
      var r := BodySchema(params[1..]);
      if r.Some? then
        var i :| 0 <= i < |params[1..]| && params[1..][i].loc == InBody && params[1..][i].schema == r.value
                 && forall j :: 0 <= j < i ==> params[1..][j].loc != InBody;
        assert params[i + 1] == params[1..][i];
        r
      else r
  }

  /** The requirements in force: an explicitly empty operation list means none;
      otherwise the operation's list (or nothing) followed by the root list. */
  function EffectiveSecurity(opSecurity: Option<seq<SecurityRequirement>>, root: seq<SecurityRequirement>): seq<SecurityRequirement> {
    if opSecurity == Some([]) then [] else opSecurity.GetOr([]) + root
  }

  /** `_prepare_secschemes`: `basic` sets the auth, `apiKey` writes one entry under
      the scheme's wire name (for a cookie, the cookie map becomes that single
      entry), every other type changes nothing. An undefined scheme name is a KeyError. */
  function ApplyScheme(definitions: map<string, SecurityScheme>, name: string, v: Value, req: BoundRequest): (r: Result<BoundRequest>)
    ensures r.Err? <==> name !in definitions
    ensures r.Ok? ==> r.value.url == req.url && r.value.cert == req.cert && r.value.body == req.body
    ensures r.Ok? ==> r.value.auth == if definitions[name] == BasicScheme then BasicAuth(v) else req.auth
    ensures r.Ok? ==> r.value.query == match definitions[name]
      case ApiKeyScheme("query", wire) => req.query[wire := v]
      case _ => req.query
    ensures r.Ok? ==> r.value.headers == match definitions[name]
      case ApiKeyScheme("header", wire) => req.headers[wire := v]
      case _ => req.headers
    ensures r.Ok? ==> r.value.cookies == match definitions[name]
      case ApiKeyScheme("cookie", wire) => map[wire := v]
      case _ => req.cookies
  {
    if name !in definitions then Err(UndefinedScheme(name))
    else
      match definitions[name]
      case BasicScheme => Ok(req.(auth := BasicAuth(v)))
      case ApiKeyScheme(in_, wire) =>
        if in_ == "query" then Ok(req.(query := req.query[wire := v]))
        else if in_ == "header" then Ok(req.(headers := req.headers[wire := v]))
        else if in_ == "cookie" then Ok(req.(cookies := map[wire := v]))
        else Ok(req)
      case _ => Ok(req)
  }

  /** `_prepare_security`: with credentials and requirements in force, the first
      credential (caller order) that names a requirement is applied and no
      other; with credentials but no such name it fails; otherwise nothing happens. */
  function PrepareSecurity(rq: Request, creds: seq<(string, Value)>, req: BoundRequest): (r: Result<BoundRequest>)
    ensures var security := EffectiveSecurity(rq.op.security, rq.rootSecurity);
      && (creds == [] || security == [] ==> r == Ok(req))
      && (creds != [] && security != [] && FirstMatch(creds, security).None? ==> r == Err(UnsatisfiedSecurity))
      && (creds != [] && security != [] && FirstMatch(creds, security).Some? ==>
            var i := FirstMatch(creds, security).value;
            r == ApplyScheme(rq.definitions, creds[i].0, creds[i].1, req))
  {
    var security := EffectiveSecurity(rq.op.security, rq.rootSecurity);
    if creds == [] || security == [] then Ok(req)
    else
      match Select(creds, security)
      case None => Err(UnsatisfiedSecurity)
      case Some((requirement, v)) => ApplyScheme(rq.definitions, requirement.name, v, req)
  }

  /** An operation whose `security` is explicitly empty applies no credential and
      raises nothing, whatever the caller passes. */
  lemma EmptySecurityIgnoresCredentials(rq: Request, creds: seq<(string, Value)>, req: BoundRequest)
    requires rq.op.security == Some([])
    ensures PrepareSecurity(rq, creds, req) == Ok(req)
  {
  }

  /** One apiKey credential in the query puts exactly `key=secret123` in the
      query and touches nothing else. */
  lemma ApiKeyScenario(rq: Request, path: Template)
    requires rq.op.security == Some([SecurityRequirement("apiKeyAuth", [])])
    requires rq.definitions == map["apiKeyAuth" := ApiKeyScheme("query", "key")]
    ensures PrepareSecurity(rq, [("apiKeyAuth", "secret123")], Fresh(path))
         == Ok(Fresh(path).(query := map["key" := "secret123"]))
  {
    var security := EffectiveSecurity(rq.op.security, rq.rootSecurity);
    assert security[0].name == "apiKeyAuth";
    assert "apiKeyAuth" in RequirementNames(security);
  }

  /** Parameters other than body parameters, in order. */
  function NonBody(ps: seq<Parameter>): (r: seq<Parameter>)
    ensures forall q :: q in r <==> q in ps && q.loc != InBody
  {
    if ps == [] then [] else (if ps[0].loc == InBody then [] else [ps[0]]) + NonBody(ps[1..])
  }

  lemma {:induction false} NonBodyConcat(a: seq<Parameter>, b: seq<Parameter>)
    ensures NonBody(a + b) == NonBody(a) + NonBody(b)
  {
    if a == [] {
      assert a + b == b;
    } else {
      assert (a + b)[0] == a[0];
      assert (a + b)[1..] == a[1..] + b;
      NonBodyConcat(a[1..], b);
    }
  }

  /** The accepted parameters: operation-level then path-level entries, body
      parameters left out, one per name with the later entry winning. */
  function Accepted(rq: Request): seq<Parameter> {
    Merge(NonBody(rq.op.parameters + rq.pathParameters))
  }

  /** No body parameter is among the accepted ones, and every accepted one is
      declared by the operation or the path item. */
  lemma BodyParametersNotAccepted(rq: Request)
    ensures forall q :: q in Accepted(rq) ==> q.loc != InBody && q in rq.op.parameters + rq.pathParameters
  {
    var ps := NonBody(rq.op.parameters + rq.pathParameters);
    forall q | q in Accepted(rq)
      ensures q.loc != InBody && q in rq.op.parameters + rq.pathParameters
    {
      assert IsLastNamed(ps, q);
    }
  }

  /** A path-level parameter overrides an operation-level one of the same name. */
  lemma PathLevelOverrides(rq: Request, k: nat)
    requires k < |NonBody(rq.pathParameters)|
    requires forall j :: k < j < |NonBody(rq.pathParameters)| ==> NonBody(rq.pathParameters)[j].name != NonBody(rq.pathParameters)[k].name
    ensures NonBody(rq.pathParameters)[k] in Accepted(rq)
    ensures forall q :: q in Accepted(rq) && q.name == NonBody(rq.pathParameters)[k].name ==> q == NonBody(rq.pathParameters)[k]
  {
    NonBodyConcat(rq.op.parameters, rq.pathParameters);
    LaterListWins(NonBody(rq.op.parameters), NonBody(rq.pathParameters), k);
  }

  /** `_prepare_parameters`: it fails exactly when a required parameter is
      missing or a field of the path has no supplied path parameter; otherwise
      every supplied query, header and cookie value sits in its map under the
      parameter's name, the path is formatted once from all path values, and
      nothing else changes. Names the operation does not accept play no part. */
  function PrepareParameters(rq: Request, values: map<string, Value>, req: BoundRequest): (r: Result<BoundRequest>)
    ensures var acc := Accepted(rq);
      && (r.Ok? <==> RequiredSupplied(acc, values) && HoleNames(req.url) <= Supplied(acc, values, InPath))
      && (!RequiredSupplied(acc, values) ==> r.Err? && r.error.MissingParameter? && r.error.name !in values)
      && (r.Ok? ==> Format(req.url, PathValues(acc, values)).Ok?
                    && r.value.url == [Lit(Format(req.url, PathValues(acc, values)).value)])
      && (r.Ok? ==> Overlaid(r.value.query, req.query, Supplied(acc, values, InQuery), values))
      && (r.Ok? ==> Overlaid(r.value.headers, req.headers, Supplied(acc, values, InHeader), values))
      && (r.Ok? ==> Overlaid(r.value.cookies, req.cookies, Supplied(acc, values, InCookie), values))
      && (r.Ok? ==> r.value.auth == req.auth && r.value.cert == req.cert && r.value.body == req.body)
  {
    BindCollectedSpec(Accepted(rq), values, CookieMap, req);
    BindCollected(Accepted(rq), values, CookieMap, req)
  }

  /** Values under names the operation does not accept are ignored. */
  lemma UnknownParametersIgnored(rq: Request, values: map<string, Value>, req: BoundRequest)
    ensures var known := map n | n in values && n in NameSet(Accepted(rq)) :: values[n];
      PrepareParameters(rq, values, req) == PrepareParameters(rq, known, req)
  {
    var acc := Accepted(rq);
    var known := map n | n in values && n in NameSet(acc) :: values[n];
    RouteIgnoresUnknownNames(acc, values, known, CookieMap, req, map[]);
  }

  /** `dict`, `list` and model data are accepted (a model by its `.dict()`
      fields); anything else, `None` included, is a TypeError. */
  function AsJson(data: BodyData): (r: Result<Json>)
    ensures r.Ok? <==> data.DictData? || data.ListData? || data.ModelData?
    ensures r.Err? ==> r.error == TypeMismatch
    ensures data.ListData? ==> r == Ok(JArray(data.items))
    ensures data.DictData? ==> r == Ok(JObject(data.members))
    ensures data.ModelData? ==> r == Ok(JObject(data.fields))
  {
    match data
    case DictData(members) => Ok(JObject(members))
    case ListData(items) => Ok(JArray(items))
    case ModelData(fields) => Ok(JObject(fields))
    case _ => Err(TypeMismatch)
  }

  /** The request-body pipeline: `marshalled` hook, JSON dump, encode to bytes,
      `sending` hook. */
  function EncodeBody(hooks: Hooks, codec: Codec, operationId: string, j: Json): Bytes {
    hooks.sending(operationId, codec.encode(codec.dumps(hooks.marshalled(operationId, j))))
  }

  /** `_prepare_body`. The body schema's `required` list decides whether missing
      data is an error. */
  function PrepareBody(rq: Request, data: BodyData, req: BoundRequest): (r: Result<BoundRequest>)
    ensures BodySchema(rq.op.parameters).None? ==> r == Ok(req)
    ensures BodySchema(rq.op.parameters).Some? && data.NoData? && |BodySchema(rq.op.parameters).value.required| > 0
            ==> r == Err(MissingBody)
    ensures BodySchema(rq.op.parameters).Some? && r.Ok? ==>
      && "application/json" in rq.op.consumes
      && AsJson(data).Ok?
      && r.value == req.(body := ByteBody(EncodeBody(rq.hooks, rq.codec, rq.op.operationId, AsJson(data).value)),
                         headers := req.headers["Content-Type" := "application/json"])
    ensures BodySchema(rq.op.parameters).Some? && !data.NoData? && "application/json" !in rq.op.consumes
            ==> r == Err(UnsupportedContentType)
    ensures r.Ok? <==> BodySchema(rq.op.parameters).None? || ("application/json" in rq.op.consumes && AsJson(data).Ok?)
    ensures BodySchema(rq.op.parameters).Some? && "application/json" in rq.op.consumes && AsJson(data).Err?
            && !(data.NoData? && |BodySchema(rq.op.parameters).value.required| > 0)
            ==> r == Err(TypeMismatch)
  {
    match BodySchema(rq.op.parameters)
    case None => Ok(req)
    case Some(schema) =>
      if data.NoData? && |schema.required| > 0 then Err(MissingBody)
      else if "application/json" !in rq.op.consumes then Err(UnsupportedContentType)
      else
        var j :- AsJson(data);
        Ok(req.(body := ByteBody(EncodeBody(rq.hooks, rq.codec, rq.op.operationId, j)),
                headers := req.headers["Content-Type" := "application/json"]))
  }

  /** Without a body parameter no data is ever an error; with one, no data is
      always an error (MissingBody, TypeError or NotImplementedError). */
  lemma NoDataWithBodyParameterFails(rq: Request, req: BoundRequest)
    requires BodySchema(rq.op.parameters).Some?
    ensures PrepareBody(rq, NoData, req).Err?
  {
  }

  /** `_prepare`: security, then parameters, then body, on a fresh request. */
  function Prepare(rq: Request, creds: seq<(string, Value)>, values: map<string, Value>, data: BodyData): (r: Result<BoundRequest>)
    ensures var s := PrepareSecurity(rq, creds, Fresh(rq.path));
      && (s.Err? ==> r == Err(s.error))
      && (s.Ok? ==> var p := PrepareParameters(rq, values, s.value);
                    && (p.Err? ==> r == Err(p.error))
                    && (p.Ok? ==> r == PrepareBody(rq, data, p.value)))
  {
    var secured :- PrepareSecurity(rq, creds, Fresh(rq.path));
    var bound :- PrepareParameters(rq, values, secured);
    PrepareBody(rq, data, bound)
  }

  /** With an explicitly empty security list the credentials make no difference,
      and the prepared request carries no authentication. */
  lemma EmptySecurityPreparesUnauthenticated(rq: Request, creds: seq<(string, Value)>, values: map<string, Value>, data: BodyData)
    requires rq.op.security == Some([])
    ensures Prepare(rq, creds, values, data) == Prepare(rq, [], values, data)
    ensures Prepare(rq, creds, values, data).Ok? ==> Prepare(rq, creds, values, data).value.auth == NoAuth
  {
    EmptySecurityIgnoresCredentials(rq, creds, Fresh(rq.path));
  }

  /** The body step runs last, so with a body parameter the Content-Type header is
      `application/json` even if a header parameter of that name was supplied. */
  lemma BodyContentTypeWins(rq: Request, creds: seq<(string, Value)>, values: map<string, Value>, data: BodyData)
    requires BodySchema(rq.op.parameters).Some?
    ensures var r := Prepare(rq, creds, values, data);
      r.Ok? ==> "Content-Type" in r.value.headers && r.value.headers["Content-Type"] == "application/json"
  {
  }

  /** With every required parameter supplied, every path field supplied, and no
      brace in the template text or the path values, the URL of the prepared
      request is plain text without `{` or `}`. */
  lemma PreparedPathHasNoPlaceholders(rq: Request, values: map<string, Value>, req: BoundRequest)
    requires RequiredSupplied(Accepted(rq), values)
    requires HoleNames(req.url) <= Supplied(Accepted(rq), values, InPath)
    requires LiteralsBraceFree(req.url)
    requires forall k :: k in values ==> BraceFree(values[k])
    ensures PrepareParameters(rq, values, req).Ok?
    ensures Literal(PrepareParameters(rq, values, req).value.url)
    ensures BraceFree(Render(PrepareParameters(rq, values, req).value.url))
  {
    var pv := PathValues(Accepted(rq), values);
    FormatLeavesNoBraces(req.url, pv);
    var s := Format(req.url, pv).value;
    assert Render([Lit(s)]) == s + "";
    assert s + "" == s;
  }

  /** `_process`: the status must be declared (or `default`); 204 then returns
      nothing; otherwise the Content-Type must pass the JSON test and the body is
      decoded against the matched response's schema. */
  function Process(rq: Request, env: Envelope): (r: Result<Decoded>)
    ensures MatchStatus(rq.op.responses, env.status).Err? ==> r == Err(UnexpectedStatus(StatusString(env.status)))
    ensures MatchStatus(rq.op.responses, env.status).Ok? && StatusString(env.status) == "204" ==> r == Ok(NoContent)
    ensures r == Ok(NoContent) ==> StatusString(env.status) == "204"
    ensures r.Ok? && r.value.Content? ==> "Content-Type" in env.headers && IsJsonMediaType(env.headers["Content-Type"])
    ensures MatchStatus(rq.op.responses, env.status).Ok? && StatusString(env.status) != "204"
            && "Content-Type" !in env.headers
            ==> r == Err(RuntimeFault)
    ensures MatchStatus(rq.op.responses, env.status).Ok? && StatusString(env.status) != "204"
            && "Content-Type" in env.headers && IsJsonMediaType(env.headers["Content-Type"])
            ==> r == AsContent(DecodeBody(rq.hooks, rq.codec, rq.op.operationId,
                                          MatchStatus(rq.op.responses, env.status).value.schema, env.text))
    ensures MatchStatus(rq.op.responses, env.status).Ok? && StatusString(env.status) != "204"
            && "Content-Type" in env.headers && !IsJsonMediaType(env.headers["Content-Type"])
            ==> r == Err(UnsupportedContentType)
  {
    var expected :- MatchStatus(rq.op.responses, env.status);
    if StatusString(env.status) == "204" then Ok(NoContent)
    else if "Content-Type" !in env.headers then Err(RuntimeFault)
    else if IsJsonMediaType(env.headers["Content-Type"]) then
      AsContent(DecodeBody(rq.hooks, rq.codec, rq.op.operationId, expected.schema, env.text))
    else Err(UnsupportedContentType)
  }

  /** A 204 returns nothing whatever its headers and body say, once its status is
      declared; an undeclared 204 without `default` is still an error. */
  lemma NoContentAfterStatusMatch(rq: Request, env: Envelope)
    requires env.status == 204
    ensures "204" in rq.op.responses || "default" in rq.op.responses ==> Process(rq, env) == Ok(NoContent)
    ensures "204" !in rq.op.responses && "default" !in rq.op.responses ==> Process(rq, env).Err?
  {
    assert StatusString(204) == "204" by {
      assert NatToDecimal(204) == NatToDecimal(20) + [DigitChar(4)];
      assert NatToDecimal(20) == NatToDecimal(2) + [DigitChar(0)];
    }
  }

  /** Round trip: with identity hooks, a codec whose parse undoes its dump and
      whose transport decoding undoes its encoding, and a model layer that keeps
      the value, the body a request sends, echoed back as `application/json`
      under a declared status, decodes to the data the caller gave. */
  lemma EchoRoundTrip(rq: Request, data: BodyData, req: BoundRequest, status: int)
    requires rq.hooks == IdentityHooks
    requires BodySchema(rq.op.parameters).Some? && PrepareBody(rq, data, req).Ok?
    requires StatusString(status) in rq.op.responses && StatusString(status) != "204"
    requires var j := AsJson(data).value;
      && rq.codec.loads(rq.codec.decode(rq.codec.encode(rq.codec.dumps(j)))) == Some(j)
      && rq.op.responses[StatusString(status)].schema.Some?
      && rq.codec.model(rq.op.responses[StatusString(status)].schema.value, j) == Some(j)
    ensures var sent := PrepareBody(rq, data, req).value.body.bytes;
      Process(rq, Envelope(status, map["Content-Type" := "application/json"], rq.codec.decode(sent)))
        == Ok(Content(AsJson(data).value))
  {
    IsJsonMediaTypeMeans("", "");
    assert "application/json" + "" == "application/json";
  }
}

=== FILE: objects.dfy ===
/** The parsed specification objects the binder reads (Parameter, Security
    Requirement and Security Scheme Objects, schemas), the collaborators it
    calls (JSON codec, data-model construction, message hooks), and the
    per-call request it fills in. */
module Objects {
  import opened Base
  import opened Templates

  /** The `in` field of a Parameter Object. Swagger 2.0 adds `body` (and
      `formData`, which like any other tag is routed nowhere). */
  datatype Location = InPath | InQuery | InHeader | InCookie | InBody | InOther(tag: string)

  predicate KnownTag(tag: string) {
    tag in {"path", "query", "header", "cookie", "body"}
  }

  function ParseLocation(tag: string): (loc: Location)
    ensures loc.InOther? <==> !KnownTag(tag)
    ensures loc == InPath <==> tag == "path"
  {
    if tag == "path" then InPath
    else if tag == "query" then InQuery
    else if tag == "header" then InHeader
    else if tag == "cookie" then InCookie
    else if tag == "body" then InBody
    else InOther(tag)
  }

  function LocationTag(loc: Location): string {
    match loc
    case InPath => "path"
    case InQuery => "query"
    case InHeader => "header"
    case InCookie => "cookie"
    case InBody => "body"
    case InOther(tag) => tag
  }

  /** Reading a tag and writing it back gives the tag: no location is lost. */
  lemma LocationTagRoundTrip(tag: string)
    ensures LocationTag(ParseLocation(tag)) == tag
  {
  }

  /** A JSON Schema as far as the binder sees it: a name for the data-model
      layer, and its `required` list of property names. */
  datatype Schema = Schema(name: string, required: seq<string>)

  /** A Parameter Object as read from the document; `required` is absent when
      the document leaves it out. */
  datatype RawParameter = RawParameter(name: string, in_: string, required: Option<bool>, schema: Schema)

  datatype Parameter = Parameter(name: string, loc: Location, required: bool, schema: Schema)

  /** `Parameter._parse_data`: a parameter located in the path whose `required`
      is not literally true is a SpecError at load time (section 4.7.12 of the
      OpenAPI Specification 3.0.1 makes it mandatory). */
  function ParseParameter(raw: RawParameter): (r: Result<Parameter>)
    ensures r.Err? <==> raw.in_ == "path" && raw.required != Some(true)
    ensures r.Err? ==> r.error == SpecError
    ensures r.Ok? ==> r.value.name == raw.name && r.value.schema == raw.schema
    ensures r.Ok? ==> LocationTag(r.value.loc) == raw.in_
    ensures r.Ok? ==> (r.value.required <==> raw.required == Some(true))
  {
    if raw.in_ == "path" && raw.required != Some(true) then Err(SpecError)
    else Ok(Parameter(raw.name, ParseLocation(raw.in_), raw.required == Some(true), raw.schema))
  }

  /** Every path parameter that survives loading is required, so the binder never
      meets an optional one. */
  lemma LoadedPathParameterIsRequired(raw: RawParameter)
    requires ParseParameter(raw).Ok?
    ensures ParseParameter(raw).value.loc == InPath ==> ParseParameter(raw).value.required
  {
  }

  /** A Security Requirement Object: one scheme name and its scopes. */
  datatype SecurityRequirement = SecurityRequirement(name: string, scopes: seq<string>)

  /** `SecurityRequirement.can_parse`: the mapping has exactly one key and the
      first (only) value is a list. The mapping is given as its items in order. */
  function CanParse(d: seq<(string, Json)>): (b: bool)
    ensures b <==> exists k, items :: d == [(k, JArray(items))]
  {
    if |d| == 1 && d[0].1.JArray? then
      assert d == [(d[0].0, JArray(d[0].1.items))];
      true
    else false
  }

  predicate AllStrings(items: seq<Json>) {
    forall i :: 0 <= i < |items| ==> items[i].JString?
  }

  function Strings(items: seq<Json>): (r: seq<string>)
    requires AllStrings(items)
    ensures |r| == |items|
    ensures forall i :: 0 <= i < |items| ==> items[i] == JString(r[i])
  {
    if items == [] then [] else [items[0].s] + Strings(items[1..])
  }

  function Scopes(scopes: seq<string>): (r: seq<Json>)
    ensures |r| == |scopes|
    ensures forall i :: 0 <= i < |scopes| ==> r[i] == JString(scopes[i])
  {
    if scopes == [] then [] else [JString(scopes[0])] + Scopes(scopes[1..])
  }

  /** `SecurityRequirement._parse_data`: the name is the only key and the scopes
      are its list of strings. */
  function ParseRequirement(d: seq<(string, Json)>): (r: Option<SecurityRequirement>)
    ensures r.Some? <==> CanParse(d) && AllStrings(d[0].1.items)
    ensures r.Some? ==> r.value.name == d[0].0 && |r.value.scopes| == |d[0].1.items|
    ensures r.Some? ==> forall i :: 0 <= i < |d[0].1.items| ==> d[0].1.items[i] == JString(r.value.scopes[i])
  {
    if CanParse(d) && AllStrings(d[0].1.items) then
      Some(SecurityRequirement(d[0].0, Strings(d[0].1.items)))
    else None
  }

  /** `SecurityRequirement.__dict__`: `{name: types}`. */
  function RequirementItems(req: SecurityRequirement): (d: seq<(string, Json)>)
    ensures CanParse(d)
  {
    [(req.name, JArray(Scopes(req.scopes)))]
  }

  /** Parsing an accepted mapping and writing the requirement back out gives the
      same mapping. */
  lemma ParsedRequirementRoundTrip(d: seq<(string, Json)>)
    requires ParseRequirement(d).Some?
    ensures RequirementItems(ParseRequirement(d).value) == d
  {
    var req := ParseRequirement(d).value;
    var items := d[0].1.items;
    assert Scopes(req.scopes) == items;
    assert d == [(d[0].0, JArray(items))];
  }

  /** Writing a requirement out and parsing it back gives the same requirement. */
  lemma RequirementRoundTrip(req: SecurityRequirement)
    ensures ParseRequirement(RequirementItems(req)) == Some(req)
  {
    var items := Scopes(req.scopes);
    assert AllStrings(items);
    var back := Strings(items);
    assert back == req.scopes;
  }

  /** A Security Scheme Object, by `type`. Swagger 2.0 writes HTTP Basic as type
      `basic`; OpenAPI 3 writes it as type `http` with scheme `basic`. `in_`,
      `scheme` and `bearerFormat` stay strings, so unknown values fall through
      exactly as they do in the source. */
  datatype SecurityScheme =
    | BasicScheme
    | ApiKeyScheme(in_: string, name: string)
    | HttpScheme(scheme: string, bearerFormat: Option<Template>)
    | OAuth2Scheme
    | OpenIdConnectScheme
    | OtherScheme(type_: string)

  /** The `type` values the clients test for. */
  predicate KnownSchemeType(t: string) {
    t in {"basic", "apiKey", "http", "oauth2", "openIdConnect"}
  }

  /** A Security Scheme Object's fields as they are read from the document. */
  datatype RawScheme = RawScheme(type_: string, in_: string, name: string, scheme: string, bearerFormat: Option<Template>)

  /** Reading a scheme by its `type`: a type the clients do not test for is kept
      as it stands, and only the fields that type uses are kept. */
  function ParseScheme(raw: RawScheme): (r: SecurityScheme)
    ensures r.OtherScheme? <==> !KnownSchemeType(raw.type_)
    ensures r.ApiKeyScheme? ==> r.in_ == raw.in_ && r.name == raw.name
    ensures r.HttpScheme? ==> r.scheme == raw.scheme && r.bearerFormat == raw.bearerFormat
  {
    if raw.type_ == "basic" then BasicScheme
    else if raw.type_ == "apiKey" then ApiKeyScheme(raw.in_, raw.name)
    else if raw.type_ == "http" then HttpScheme(raw.scheme, raw.bearerFormat)
    else if raw.type_ == "oauth2" then OAuth2Scheme
    else if raw.type_ == "openIdConnect" then OpenIdConnectScheme
    else OtherScheme(raw.type_)
  }

  /** The `type` a scheme was read from. */
  function SchemeType(s: SecurityScheme): string {
    match s
    case BasicScheme => "basic"
    case ApiKeyScheme(_, _) => "apiKey"
    case HttpScheme(_, _) => "http"
    case OAuth2Scheme => "oauth2"
    case OpenIdConnectScheme => "openIdConnect"
    case OtherScheme(t) => t
  }

  /** A scheme as it could have been read: an OtherScheme never holds a type the
      clients test for. */
  predicate WellTyped(s: SecurityScheme) {
    s.OtherScheme? ==> !KnownSchemeType(s.type_)
  }

  /** Writing a scheme's fields out. */
  function SchemeFields(s: SecurityScheme): RawScheme {
    match s
    case ApiKeyScheme(in_, name) => RawScheme("apiKey", in_, name, "", None)
    case HttpScheme(scheme, f) => RawScheme("http", "", "", scheme, f)
    case _ => RawScheme(SchemeType(s), "", "", "", None)
  }

  /** Reading keeps the type, and every scheme read is well typed. */
  lemma ParseSchemeKeepsType(raw: RawScheme)
    ensures SchemeType(ParseScheme(raw)) == raw.type_
    ensures WellTyped(ParseScheme(raw))
  {
  }

  /** Every well-typed scheme is what reading its written-out fields gives. */
  lemma SchemeRoundTrip(s: SecurityScheme)
    requires WellTyped(s)
    ensures ParseScheme(SchemeFields(s)) == s
  {
  }

  /** `requests`/`httpx` authentication objects, kept opaque. */
  datatype Auth = NoAuth | BasicAuth(credential: Value) | DigestAuth(credential: Value)

  datatype Body = NoBody | TextBody(text: string) | ByteBody(bytes: Bytes)

  /** The per-call request: URL template (a single literal once the path is
      formatted), query, header and cookie maps, authentication, client
      certificate and body. */
  datatype BoundRequest = BoundRequest(
    url: Template,
    query: map<string, Value>,
    headers: map<string, Value>,
    cookies: map<string, Value>,
    auth: Auth,
    cert: Option<Value>,
    body: Body)

  /** The request as it is before any binding step runs. */
  function Fresh(path: Template): BoundRequest {
    BoundRequest(path, map[], map[], map[], NoAuth, None, NoBody)
  }

  /** Body data as the caller passes it. A pydantic/`Model` instance is given by
      its fields, with `JNull` for a field set to `None`; `NoData` is `None`. */
  datatype BodyData =
    | NoData
    | DictData(members: seq<(string, Json)>)
    | ListData(items: seq<Json>)
    | ModelData(fields: seq<(string, Json)>)
    | OtherData(value: Json)

  /** The five message hooks, each given the operationId. */
  datatype Hooks = Hooks(
    marshalled: (string, Json) -> Json,
    sending: (string, Bytes) -> Bytes,
    received: (string, string) -> string,
    parsed: (string, Json) -> Json,
    unmarshalled: (string, Json) -> Json)

  const IdentityHooks: Hooks := Hooks(
    (id, j) => j, (id, b) => b, (id, s) => s, (id, j) => j, (id, j) => j)

  /** Collaborators outside the core: `json.dumps`, `json.loads`, `str.encode`,
      the transport's decoding of the response bytes into text, and the data-model
      layer that builds a typed value from a schema (None when it rejects the value). */
  datatype Codec = Codec(
    dumps: Json -> string,
    loads: string -> Option<Json>,
    encode: string -> Bytes,
    decode: Bytes -> string,
    model: (Schema, Json) -> Option<Json>)

  /** An OpenAPI 3 Request Body Object: whether it is required, and the schema
      per media type. */
  datatype RequestBody = RequestBody(required: bool, content: map<string, Schema>)

  /** The transport's response: status, headers and decoded text. */
  datatype Envelope = Envelope(status: int, headers: map<string, string>, text: string)

  /** What a call returns: nothing (204) or the decoded value. */
  datatype Decoded = NoContent | Content(value: Json)
}

=== FILE: openapi3.dfy ===
/** `Operation.request` of the OpenAPI 3 client (`openapi3/paths.py`): security,
    then the request body, then the parameters, on a fresh request; then the
    response is matched by status and media type and decoded. */
module Openapi3 {
  import opened Base
  import opened Text
  import opened Templates
  import opened Objects
  import opened Parameters
  import opened Security
  import opened Responses

  /** A Response Object: per media type (or media range), the Media Type
      Object's schema, absent when it declares none. */
  datatype Response = Response(content: map<string, Option<Schema>>)

  /** The parts of an Operation Object the request reads. A document that leaves
      `security` or `parameters` out gets an empty list when it is loaded, so
      both are plain sequences here. */
  datatype Operation = Operation(
    operationId: string,
    parameters: seq<Parameter>,
    requestBody: Option<RequestBody>,
    responses: map<string, Response>,
    security: seq<SecurityRequirement>)

  /** What a request reads besides the caller's arguments: the operation, the
      path item's parameters and template, `components.securitySchemes`, and
      the JSON codec and data-model layer. */
  datatype Request = Request(
    op: Operation,
    pathParameters: seq<Parameter>,
    path: Template,
    schemes: map<string, SecurityScheme>,
    codec: Codec)

  /** The HTTP authentication schemes the client knows how to apply. */
  predicate KnownHttpScheme(scheme: string) {
    scheme in {"basic", "bearer", "digest", "mutualTLS"}
  }

  /** Applying the selected scheme. Each supported case changes one thing and
      keeps the rest of the request; OAuth2, OpenID Connect and unknown HTTP
      schemes are not implemented; an apiKey in a cookie (or anywhere other than
      the query or a header) and an unknown scheme type are silently ignored. */
  function ApplyScheme(schemes: map<string, SecurityScheme>, name: string, v: Value, req: BoundRequest): (r: Result<BoundRequest>)
    ensures name !in schemes ==> r == Err(UndefinedScheme(name))
    ensures name in schemes ==> match schemes[name]
      case HttpScheme(scheme, f) =>
        && (!KnownHttpScheme(scheme) ==> r == Err(UnsupportedScheme))
        && (scheme == "basic" ==> r == Ok(req.(auth := BasicAuth(v))))
        && (scheme == "digest" ==> r == Ok(req.(auth := DigestAuth(v))))
        && (scheme == "mutualTLS" ==> r == Ok(req.(cert := Some(v))))
        && (scheme == "bearer" ==> (r.Ok? <==> FormatPositional(HeaderFormat(f), v).Ok?))
        && (scheme == "bearer" && r.Ok? ==>
              r.value == req.(headers := req.headers["Authorization" := FormatPositional(HeaderFormat(f), v).value]))
      case ApiKeyScheme(in_, wire) =>
        && (in_ == "query" ==> r == Ok(req.(query := req.query[wire := v])))
        && (in_ == "header" ==> r == Ok(req.(headers := req.headers[wire := v])))
        && (in_ != "query" && in_ != "header" ==> r == Ok(req))
      case OAuth2Scheme => r == Err(UnsupportedScheme)
      case OpenIdConnectScheme => r == Err(UnsupportedScheme)
      case _ => r == Ok(req)
  {
    if name !in schemes then Err(UndefinedScheme(name))
    else
      match schemes[name]
      case HttpScheme(scheme, f) =>
        if scheme == "basic" then Ok(req.(auth := BasicAuth(v)))
        else if scheme == "bearer" then
          var header :- FormatPositional(HeaderFormat(f), v);
          Ok(req.(headers := req.headers["Authorization" := header]))
        else if scheme == "digest" then Ok(req.(auth := DigestAuth(v)))
        else if scheme == "mutualTLS" then Ok(req.(cert := Some(v)))
        else Err(UnsupportedScheme)
      case ApiKeyScheme(in_, wire) =>
        if in_ == "query" then Ok(req.(query := req.query[wire := v]))
        else if in_ == "header" then Ok(req.(headers := req.headers[wire := v]))
        else Ok(req)
      case OAuth2Scheme => Err(UnsupportedScheme)
      case OpenIdConnectScheme => Err(UnsupportedScheme)
      case _ => Ok(req)
  }

  /** A bearer scheme with no format sends `Authorization: Bearer <token>` and
      changes nothing else. */
  lemma DefaultBearerScenario(schemes: map<string, SecurityScheme>, name: string, token: Value, req: BoundRequest)
    requires name in schemes && schemes[name] == HttpScheme("bearer", None)
    ensures ApplyScheme(schemes, name, token, req) == Ok(req.(headers := req.headers["Authorization" := "Bearer " + token]))
  {
    DefaultBearerHeader(token);
  }

  /** The security step: with credentials and operation requirements, the first
      credential (caller order) that names a requirement is applied, and none
      naming one is an error; otherwise nothing happens. Only the operation's
      own list is consulted. */
  function PrepareSecurity(rq: Request, creds: seq<(string, Value)>, req: BoundRequest): (r: Result<BoundRequest>)
    ensures creds == [] || rq.op.security == [] ==> r == Ok(req)
    ensures creds != [] && rq.op.security != [] && FirstMatch(creds, rq.op.security).None? ==> r == Err(UnsatisfiedSecurity)
    ensures creds != [] && rq.op.security != [] && FirstMatch(creds, rq.op.security).Some? ==>
      var i := FirstMatch(creds, rq.op.security).value;
      r == ApplyScheme(rq.schemes, creds[i].0, creds[i].1, req)
  {
    if creds == [] || rq.op.security == [] then Ok(req)
    else
      match Select(creds, rq.op.security)
      case None => Err(UnsatisfiedSecurity)
      case Some((requirement, v)) => ApplyScheme(rq.schemes, requirement.name, v, req)
  }

  /** The fields of a model whose value is not None, in order. */
  function NonNullFields(fields: seq<(string, Json)>): (r: seq<(string, Json)>)
    ensures forall m :: m in r <==> m in fields && m.1 != JNull
    ensures |r| <= |fields|
    ensures |fields| == 1 ==> r == if fields[0].1 == JNull then [] else fields
  {
    if fields == [] then []
    else (if fields[0].1 == JNull then [] else [fields[0]]) + NonNullFields(fields[1..])
  }

  /** The filter works field by field: filtering a concatenation is
      concatenating the filtered parts, so each kept field appears once, in
      field order. */
  lemma {:induction false} NonNullFieldsConcat(a: seq<(string, Json)>, b: seq<(string, Json)>)
    ensures NonNullFields(a + b) == NonNullFields(a) + NonNullFields(b)
  {
    if a != [] {
      assert (a + b)[0] == a[0];
      assert (a + b)[1..] == a[1..] + b;
      NonNullFieldsConcat(a[1..], b);
    } else {
      assert a + b == b;
    }
  }

  /** The JSON text sent for body data: a dict as it is, a model without its
      None fields; any other data sends no body. */
  function Serialize(data: BodyData, dumps: Json -> string): Option<string> {
    match data
    case DictData(members) => Some(dumps(JObject(members)))
    case ModelData(fields) => Some(dumps(JObject(NonNullFields(fields))))
    case _ => None
  }

  /** The body step. A required body without data fails; a request body without
      an `application/json` entry is not implemented, whatever the data; otherwise
      the JSON text (if any) becomes the body and Content-Type is always set. */
  function PrepareBody(rq: Request, data: BodyData, req: BoundRequest): (r: Result<BoundRequest>)
    ensures rq.op.requestBody.None? ==> r == Ok(req)
    ensures rq.op.requestBody.Some? ==>
      var rb := rq.op.requestBody.value;
      && (r.Ok? <==> !(rb.required && data.NoData?) && "application/json" in rb.content)
      && (rb.required && data.NoData? ==> r == Err(MissingBody))
      && (!(rb.required && data.NoData?) && "application/json" !in rb.content ==> r == Err(UnsupportedContentType))
      && (r.Ok? ==> r.value.headers == req.headers["Content-Type" := "application/json"])
      && (r.Ok? ==> r.value.body == match Serialize(data, rq.codec.dumps)
                                    case Some(text) => TextBody(text)
                                    case None => req.body)
      && (r.Ok? ==> r.value.(body := req.body, headers := req.headers) == req)
  {
    match rq.op.requestBody
    case None => Ok(req)
    case Some(rb) =>
      if rb.required && data.NoData? then Err(MissingBody)
      else if "application/json" !in rb.content then Err(UnsupportedContentType)
      else
        var body := match Serialize(data, rq.codec.dumps)
          case Some(text) => TextBody(text)
          case None => req.body;
        Ok(req.(body := body, headers := req.headers["Content-Type" := "application/json"]))
  }

  /** Round trip: when the codec's parse undoes its dump, the body sent for a
      model parses back to an object holding exactly the model's non-None fields. */
  lemma ModelBodyRoundTrip(rq: Request, fields: seq<(string, Json)>, req: BoundRequest)
    requires rq.op.requestBody.Some? && PrepareBody(rq, ModelData(fields), req).Ok?
    requires forall j :: rq.codec.loads(rq.codec.dumps(j)) == Some(j)
    ensures var sent := PrepareBody(rq, ModelData(fields), req).value.body;
      && sent.TextBody?
      && rq.codec.loads(sent.text).Some?
      && rq.codec.loads(sent.text).value.JObject?
      && forall m :: m in rq.codec.loads(sent.text).value.members <==> m in fields && m.1 != JNull
  {
  }

  /** A list is accepted and silently not sent. */
  lemma ListBodyDropped(rq: Request, items: seq<Json>, req: BoundRequest)
    requires PrepareBody(rq, ListData(items), req).Ok?
    ensures PrepareBody(rq, ListData(items), req).value.body == req.body
  {
  }

  /** The accepted parameters: operation-level then path-level, one per name,
      the path-level entry winning. */
  function Accepted(rq: Request): seq<Parameter> {
    Merge(rq.op.parameters + rq.pathParameters)
  }

  /** The parameter loop as the source writes it: required parameters are checked
      one by one while the values are placed, and each path value is substituted
      into the path by a format call of its own, so that call fails on any other
      field still in the path. A cookie value replaces the `Cookie` header. */
  function BindAsWritten(accepted: seq<Parameter>, values: map<string, Value>, req: BoundRequest): (r: Result<BoundRequest>)
    ensures r.Ok? ==> RequiredSupplied(accepted, values)
    ensures r.Ok? ==> r.value.auth == req.auth && r.value.cert == req.cert && r.value.body == req.body
    ensures r.Ok? ==> r.value.cookies == req.cookies
  {
    if accepted == [] then Ok(req)
    else
      var p := accepted[0];
      var rest := accepted[1..];
      assert forall i :: 0 < i < |accepted| ==> accepted[i] == rest[i - 1];
      if p.name !in values then
        if p.required then Err(MissingParameter(p.name))
        else BindAsWritten(rest, values, req)
      else
        var v := values[p.name];
        match p.loc
        case InPath =>
          var path :- Format(req.url, map[p.name := v]);
          BindAsWritten(rest, values, req.(url := [Lit(path)]))
        case InQuery => BindAsWritten(rest, values, req.(query := req.query[p.name := v]))
        case InHeader => BindAsWritten(rest, values, req.(headers := req.headers[p.name := v]))
        case InCookie => BindAsWritten(rest, values, req.(headers := req.headers["Cookie" := v]))
        case _ => BindAsWritten(rest, values, req)
  }

  /** A path with two fields, both supplied: the loop as written fails with
      KeyError on the second field when it formats the first, while formatting
      once from all path values gives the intended path. */
  lemma TwoPathParametersRejected(s: Schema, req: BoundRequest, a: string, b: string, x: Value, y: Value)
    requires a != b
    requires req.url == [Lit("/"), Hole(a), Lit("/"), Hole(b)]
    ensures var accepted := [Parameter(a, InPath, true, s), Parameter(b, InPath, true, s)];
      var values := map[a := x, b := y];
      && BindAsWritten(accepted, values, req) == Err(UnresolvedPlaceholder(b))
      && BindCollected(accepted, values, CookieHeader, req) == Ok(req.(url := [Lit("/" + x + "/" + y)]))
  {
    var accepted := [Parameter(a, InPath, true, s), Parameter(b, InPath, true, s)];
    var values := map[a := x, b := y];
    var url := req.url;
    assert url[1..] == [Hole(a), Lit("/"), Hole(b)];
    assert url[1..][1..] == [Lit("/"), Hole(b)];
    assert url[1..][1..][1..] == [Hole(b)];
    assert [Hole(b)][1..] == [];
    var first := map[a := x];
    assert Format([Hole(b)], first) == Err(UnresolvedPlaceholder(b));
    assert Format([Lit("/"), Hole(b)], first) == Err(UnresolvedPlaceholder(b));
    assert Format([Hole(a), Lit("/"), Hole(b)], first) == Err(UnresolvedPlaceholder(b));
    assert Format(url, first) == Err(UnresolvedPlaceholder(b));
    assert accepted[1..] == [Parameter(b, InPath, true, s)];
    assert accepted[1..][1..] == [];
    assert Route(accepted[1..][1..], values, CookieHeader, req, first[b := y]) == Ok((req, first[b := y]));
    assert Route(accepted, values, CookieHeader, req, map[]) == Ok((req, values));
    assert Format([Hole(b)], values) == Ok(y + "");
    assert Format([Lit("/"), Hole(b)], values) == Ok("/" + (y + ""));
    assert Format([Hole(a), Lit("/"), Hole(b)], values) == Ok(x + ("/" + (y + "")));
    assert Format(url, values) == Ok("/" + (x + ("/" + (y + ""))));
    assert "/" + (x + ("/" + (y + ""))) == "/" + x + "/" + y;
  }

  /** Binding as written formats the path only inside the branch for a supplied
      path parameter: with none declared, the path goes out with its fields still
      in it. */
  lemma {:induction false} NoPathParameterKeepsPath(accepted: seq<Parameter>, values: map<string, Value>, req: BoundRequest)
    requires forall i :: 0 <= i < |accepted| ==> accepted[i].loc != InPath
    requires RequiredSupplied(accepted, values)
    ensures BindAsWritten(accepted, values, req).Ok?
    ensures BindAsWritten(accepted, values, req).value.url == req.url
  {
    if accepted != [] {
      var p := accepted[0];
      var rest := accepted[1..];
      assert forall i :: 0 < i < |accepted| ==> accepted[i] == rest[i - 1];
      var next := if p.name !in values then req
        else match p.loc
          case InQuery => req.(query := req.query[p.name := values[p.name]])
          case InHeader => req.(headers := req.headers[p.name := values[p.name]])
          case InCookie => req.(headers := req.headers["Cookie" := values[p.name]])
          case _ => req;
      assert BindAsWritten(accepted, values, req) == BindAsWritten(rest, values, next);
      NoPathParameterKeepsPath(rest, values, next);
    }
  }

  /** A path field that no path parameter declares (`/{id}` with no `id`
      parameter): as written the request goes out with the field unformatted;
      formatting once from the collected values, as the Swagger 2.0 binder does,
      rejects it with KeyError. */
  lemma UndeclaredFieldSentLiterally(accepted: seq<Parameter>, values: map<string, Value>, req: BoundRequest)
    requires UniqueNames(accepted)
    requires forall i :: 0 <= i < |accepted| ==> accepted[i].loc != InPath
    requires RequiredSupplied(accepted, values)
    requires HoleNames(req.url) != {}
    ensures BindAsWritten(accepted, values, req).Ok? && BindAsWritten(accepted, values, req).value.url == req.url
    ensures var r := BindCollected(accepted, values, CookieHeader, req);
      r.Err? && r.error.UnresolvedPlaceholder? && r.error.name in HoleNames(req.url)
  {
    NoPathParameterKeepsPath(accepted, values, req);
    RouteFailsIffRequiredMissing(accepted, values, CookieHeader, req, map[]);
    RouteCollectsPathValues(accepted, values, CookieHeader, req, map[]);
    assert Supplied(accepted, values, InPath) == {};
    var (out, pv) := Route(accepted, values, CookieHeader, req, map[]).value;
    assert pv.Keys == {};
    assert !(HoleNames(out.url) <= pv.Keys);
  }

  /** The parameter step, with the path formatted once from all path values
      (as the Swagger 2.0 client does) rather than once per value. It fails exactly
      when a required parameter is missing or a field of the path has no supplied
      path parameter; otherwise the path becomes plain text, every supplied query
      value is in place, and authentication, certificate and body are kept. */
  function PrepareParameters(rq: Request, values: map<string, Value>, req: BoundRequest): (r: Result<BoundRequest>)
    ensures var acc := Accepted(rq);
      && (r.Ok? <==> RequiredSupplied(acc, values) && HoleNames(req.url) <= Supplied(acc, values, InPath))
      && (!RequiredSupplied(acc, values) ==> r.Err? && r.error.MissingParameter? && r.error.name !in values)
      && (r.Ok? ==> Format(req.url, PathValues(acc, values)).Ok?
                    && r.value.url == [Lit(Format(req.url, PathValues(acc, values)).value)])
      && (r.Ok? ==> Overlaid(r.value.query, req.query, Supplied(acc, values, InQuery), values))
      && (r.Ok? ==> r.value.auth == req.auth && r.value.cert == req.cert && r.value.body == req.body)
  {
    BindCollectedSpec(Accepted(rq), values, CookieHeader, req);
    BindCollected(Accepted(rq), values, CookieHeader, req)
  }

  /** Without a cookie parameter, each supplied header parameter is written over
      the headers the earlier steps set. */
  lemma HeadersPlaced(rq: Request, values: map<string, Value>, req: BoundRequest)
    requires Supplied(Accepted(rq), values, InCookie) == {}
    requires PrepareParameters(rq, values, req).Ok?
    ensures Overlaid(PrepareParameters(rq, values, req).value.headers, req.headers,
                     Supplied(Accepted(rq), values, InHeader), values)
  {
    RouteCookiePlacementIrrelevant(Accepted(rq), values, req, map[]);
    BindCollectedSpec(Accepted(rq), values, CookieMap, req);
  }

  /** The whole preparation: security, then body, then parameters, on a fresh request. */
  function Prepare(rq: Request, creds: seq<(string, Value)>, values: map<string, Value>, data: BodyData): (r: Result<BoundRequest>)
    ensures var s := PrepareSecurity(rq, creds, Fresh(rq.path));
      && (s.Err? ==> r == Err(s.error))
      && (s.Ok? ==> var b := PrepareBody(rq, data, s.value);
                    && (b.Err? ==> r == Err(b.error))
                    && (b.Ok? ==> r == PrepareParameters(rq, values, b.value)))
  {
    var secured :- PrepareSecurity(rq, creds, Fresh(rq.path));
    var withBody :- PrepareBody(rq, data, secured);
    PrepareParameters(rq, values, withBody)
  }

  /** Parameters run after the body, so a supplied header parameter called
      `Content-Type` replaces the `application/json` the body step set. */
  lemma HeaderParameterOverridesContentType(rq: Request, creds: seq<(string, Value)>, values: map<string, Value>, data: BodyData)
    requires rq.op.requestBody.Some?
    requires "Content-Type" in Supplied(Accepted(rq), values, InHeader)
    requires Supplied(Accepted(rq), values, InCookie) == {}
    requires Prepare(rq, creds, values, data).Ok?
    ensures var headers := Prepare(rq, creds, values, data).value.headers;
      "Content-Type" in headers && headers["Content-Type"] == values["Content-Type"]
  {
    var secured := PrepareSecurity(rq, creds, Fresh(rq.path)).value;
    var withBody := PrepareBody(rq, data, secured).value;
    HeadersPlaced(rq, values, withBody);
  }

  /** Matching and decoding the response: the status must be declared (or
      `default`); the Content-Type header must be present and found in the
      response's content, exactly or by its range; only a header that is exactly
      `application/json` up to letter case is decoded, and only when the media
      entry has a schema (otherwise AttributeError, before the text is parsed).
      No hook runs. */
  function Process(rq: Request, env: Envelope): (r: Result<Decoded>)
    ensures MatchStatus(rq.op.responses, env.status).Err? ==> r == Err(UnexpectedStatus(StatusString(env.status)))
    ensures MatchStatus(rq.op.responses, env.status).Ok? && "Content-Type" !in env.headers ==> r == Err(RuntimeFault)
    ensures MatchStatus(rq.op.responses, env.status).Ok? && "Content-Type" in env.headers
            && LookupMedia(MatchStatus(rq.op.responses, env.status).value.content, env.headers["Content-Type"]).Err?
            ==> r == Err(UnexpectedContentType(env.headers["Content-Type"]))
    ensures MatchStatus(rq.op.responses, env.status).Ok? && "Content-Type" in env.headers
            && LookupMedia(MatchStatus(rq.op.responses, env.status).value.content, env.headers["Content-Type"]).Ok?
            ==> var media := LookupMedia(MatchStatus(rq.op.responses, env.status).value.content, env.headers["Content-Type"]).value;
                && (Lower(env.headers["Content-Type"]) != "application/json" ==> r == Err(UnsupportedContentType))
                && (Lower(env.headers["Content-Type"]) == "application/json" && media.None? ==> r == Err(RuntimeFault))
                && (Lower(env.headers["Content-Type"]) == "application/json" && media.Some? ==>
                      r == AsContent(DecodeBody(IdentityHooks, rq.codec, rq.op.operationId, media, env.text)))
    ensures r.Ok? ==> r.value.Content?
    ensures r.Ok? ==> "Content-Type" in env.headers && Lower(env.headers["Content-Type"]) == "application/json"
  {
    var expected :- MatchStatus(rq.op.responses, env.status);
    if "Content-Type" !in env.headers then Err(RuntimeFault)
    else
      var contentType := env.headers["Content-Type"];
      var media :- LookupMedia(expected.content, contentType);
      if Lower(contentType) != "application/json" then Err(UnsupportedContentType)
      else if media.None? then Err(RuntimeFault)
      else AsContent(DecodeBody(IdentityHooks, rq.codec, rq.op.operationId, media, env.text))
  }

  /** There is no special case for 204: a declared 204 without a Content-Type
      header is an error. */
  lemma NoContentIsNotSpecial(rq: Request, env: Envelope)
    requires env.status == 204 && "204" in rq.op.responses
    requires "Content-Type" !in env.headers
    ensures Process(rq, env) == Err(RuntimeFault)
  {
    assert StatusString(204) == "204" by {
      assert NatToDecimal(204) == NatToDecimal(20) + [DigitChar(4)];
      assert NatToDecimal(20) == NatToDecimal(2) + [DigitChar(0)];
    }
  }

  /** A JSON Content-Type that carries parameters (`; charset=utf-8`) is never
      decoded. */
  lemma MediaTypeParametersNeverDecode(rq: Request, env: Envelope, params: string)
    requires params != []
    requires "Content-Type" in env.headers && env.headers["Content-Type"] == "application/json" + params
    ensures Process(rq, env).Err?
  {
    assert |Lower(env.headers["Content-Type"])| > |"application/json"|;
  }

  /** Round trip: a response declared for its status, whose Content-Type is
      `application/json` up to letter case and is a key of the response's
      content, whose text the codec parses and whose value the schema accepts,
      decodes to that value. */
  lemma DecodesDeclaredJson(rq: Request, env: Envelope, contentType: string, j: Json)
    requires StatusString(env.status) in rq.op.responses
    requires Lower(contentType) == "application/json"
    requires contentType in rq.op.responses[StatusString(env.status)].content
    requires env.headers == map["Content-Type" := contentType]
    requires rq.codec.loads(env.text) == Some(j)
    requires rq.op.responses[StatusString(env.status)].content[contentType].Some?
    requires rq.codec.model(rq.op.responses[StatusString(env.status)].content[contentType].value, j) == Some(j)
    ensures Process(rq, env) == Ok(Content(j))
  {
    var expected := rq.op.responses[StatusString(env.status)];
    assert MatchStatus(rq.op.responses, env.status) == Ok(expected);
    assert LookupMedia(expected.content, contentType) == Ok(expected.content[contentType]);
  }
}

=== FILE: openapilegacy.dfy ===
/** `Operation.request` of the earlier OpenAPI 3 client (`openapi/paths.py`):
    one credential taken from the caller's mapping, then the request body, then
    the call. Parameters are not bound, the path is sent as it stands, and the
    response is returned undecoded. */
module OpenapiLegacy {
  import opened Base
  import opened Templates
  import opened Objects
  import opened Security

  /** The parts of an Operation Object this client reads. Nothing defaults a
      missing `security` here, so it stays None. */
  datatype Operation = Operation(
    security: Option<seq<SecurityRequirement>>,
    requestBody: Option<RequestBody>)

  datatype Request = Request(
    op: Operation,
    path: Template,
    schemes: map<string, SecurityScheme>,
    codec: Codec)

  /** `dict.popitem()`: the most recently inserted entry, and what remains. */
  function PopItem(creds: seq<(string, Value)>): (r: ((string, Value), seq<(string, Value)>))
    requires creds != []
    ensures r.1 + [r.0] == creds
  {
    (creds[|creds| - 1], creds[..|creds| - 1])
  }

  /** Applying the scheme as the source writes it. Only a bearer scheme does
      anything; basic and digest HTTP, apiKey and OAuth2 are not implemented; other
      HTTP schemes are ignored. The branch meant for OpenID Connect names an
      undefined variable, so every scheme type other than `http`, `apiKey` and
      `oauth2` ends in a NameError. */
  function ApplySchemeAsWritten(schemes: map<string, SecurityScheme>, name: string, v: Value, req: BoundRequest): (r: Result<BoundRequest>)
    ensures name !in schemes ==> r == Err(UndefinedScheme(name))
    ensures name in schemes ==> match schemes[name]
      case HttpScheme(scheme, f) =>
        && (scheme == "basic" || scheme == "digest" ==> r == Err(UnsupportedScheme))
        && (scheme == "bearer" ==> (r.Ok? <==> FormatPositional(HeaderFormat(f), v).Ok?))
        && (scheme == "bearer" && r.Ok? ==>
              r.value == req.(headers := req.headers["Authorization" := FormatPositional(HeaderFormat(f), v).value]))
        && (scheme !in {"basic", "bearer", "digest"} ==> r == Ok(req))
      case ApiKeyScheme(_, _) => r == Err(UnsupportedScheme)
      case OAuth2Scheme => r == Err(UnsupportedScheme)
      case _ => r == Err(RuntimeFault)
  {
    if name !in schemes then Err(UndefinedScheme(name))
    else
      match schemes[name]
      case HttpScheme(scheme, f) =>
        if scheme == "basic" then Err(UnsupportedScheme)
        else if scheme == "bearer" then
          var header :- FormatPositional(HeaderFormat(f), v);
          Ok(req.(headers := req.headers["Authorization" := header]))
        else if scheme == "digest" then Err(UnsupportedScheme)
        else Ok(req)
      case ApiKeyScheme(_, _) => Err(UnsupportedScheme)
      case OAuth2Scheme => Err(UnsupportedScheme)
      case _ => Err(RuntimeFault)
  }

  /** The scheme step as evidently intended: OpenID Connect is not implemented,
      like OAuth2, and a scheme type the chain does not name is ignored. It never
      faults, and agrees with the code as written on every type the chain
      reaches without the misspelt name. */
  function ApplyScheme(schemes: map<string, SecurityScheme>, name: string, v: Value, req: BoundRequest): (r: Result<BoundRequest>)
    ensures r.Err? ==> r.error != RuntimeFault
    ensures name in schemes && schemes[name].OpenIdConnectScheme? ==> r == Err(UnsupportedScheme)
    ensures name in schemes && (schemes[name].BasicScheme? || schemes[name].OtherScheme?) ==> r == Ok(req)
    ensures name !in schemes || schemes[name].HttpScheme? || schemes[name].ApiKeyScheme? || schemes[name].OAuth2Scheme?
            ==> r == ApplySchemeAsWritten(schemes, name, v, req)
  {
    if name in schemes && schemes[name].OpenIdConnectScheme? then Err(UnsupportedScheme)
    else if name in schemes && (schemes[name].BasicScheme? || schemes[name].OtherScheme?) then Ok(req)
    else
      var r := ApplySchemeAsWritten(schemes, name, v, req);
      assert r.Err? ==> r.error != RuntimeFault by {
        if name in schemes && schemes[name].HttpScheme? && schemes[name].scheme == "bearer" {
          assert r.Err? ==> r == FormatPositional(HeaderFormat(schemes[name].bearerFormat), v).PropagateFailure();
        }
      }
      r
  }

  /** An OpenID Connect scheme or one of a type the chain does not name: the code
      as written raises NameError, the intended code raises NotImplementedError
      for the first and applies nothing for the second. */
  lemma MisspeltNameFaults(schemes: map<string, SecurityScheme>, name: string, v: Value, req: BoundRequest, t: string)
    requires name in schemes
    requires !KnownSchemeType(t)
    ensures schemes[name] == OpenIdConnectScheme ==>
      ApplySchemeAsWritten(schemes, name, v, req) == Err(RuntimeFault) && ApplyScheme(schemes, name, v, req) == Err(UnsupportedScheme)
    ensures schemes[name] == OtherScheme(t) ==>
      ApplySchemeAsWritten(schemes, name, v, req) == Err(RuntimeFault) && ApplyScheme(schemes, name, v, req) == Ok(req)
  {
  }

  /** The security step for one credential: an operation without a `security`
      list cannot be iterated; a credential naming no requirement is an error;
      otherwise its scheme is applied. */
  function Secure(rq: Request, cred: (string, Value), req: BoundRequest): (r: Result<BoundRequest>)
    ensures rq.op.security.None? ==> r == Err(RuntimeFault)
    ensures rq.op.security.Some? && cred.0 !in RequirementNames(rq.op.security.value) ==> r == Err(UnsatisfiedSecurity)
    ensures rq.op.security.Some? && cred.0 in RequirementNames(rq.op.security.value)
            ==> r == ApplyScheme(rq.schemes, cred.0, cred.1, req)
  {
    match rq.op.security
    case None => Err(RuntimeFault)
    case Some(reqs) =>
      match FirstNamed(reqs, cred.0)
      case None => Err(UnsatisfiedSecurity)
      case Some(k) => ApplyScheme(rq.schemes, reqs[k].name, cred.1, req)
  }

  /** The body step: a required body without data fails; a dict is sent as JSON
      when the request body offers `application/json`; anything else is silently
      not sent. */
  function PrepareBody(rq: Request, data: BodyData, req: BoundRequest): (r: Result<BoundRequest>)
    ensures r.Err? <==> rq.op.requestBody.Some? && rq.op.requestBody.value.required && data.NoData?
    ensures r.Err? ==> r.error == MissingBody
    ensures r.Ok? && rq.op.requestBody.Some? && data.DictData? && "application/json" in rq.op.requestBody.value.content
            ==> r.value == req.(body := TextBody(rq.codec.dumps(JObject(data.members))),
                                headers := req.headers["Content-Type" := "application/json"])
    ensures r.Ok? && !(rq.op.requestBody.Some? && data.DictData? && "application/json" in rq.op.requestBody.value.content)
            ==> r.value == req
  {
    match rq.op.requestBody
    case None => Ok(req)
    case Some(rb) =>
      if rb.required && data.NoData? then Err(MissingBody)
      else if data.DictData? && "application/json" in rb.content then
        Ok(req.(body := TextBody(rq.codec.dumps(JObject(data.members))),
                headers := req.headers["Content-Type" := "application/json"]))
      else Ok(req)
  }

  /** The whole call: with credentials, the last one is popped and applied; then
      the body. Returns the request and the credentials left in the caller's
      mapping. The path is sent unformatted, and no query or cookie is set. */
  function Prepare(rq: Request, creds: seq<(string, Value)>, data: BodyData): (r: Result<(BoundRequest, seq<(string, Value)>)>)
    ensures r.Ok? ==> r.value.0.url == rq.path && r.value.0.query == map[] && r.value.0.cookies == map[]
    ensures r.Ok? && creds != [] ==> r.value.1 + [creds[|creds| - 1]] == creds
    ensures creds == [] ==> r == match PrepareBody(rq, data, Fresh(rq.path))
                                 case Ok(req) => Ok((req, []))
                                 case Err(e) => Err(e)
    ensures creds != [] ==>
      var s := Secure(rq, creds[|creds| - 1], Fresh(rq.path));
      && (s.Err? ==> r == Err(s.error))
      && (s.Ok? ==> r == match PrepareBody(rq, data, s.value)
                         case Ok(q) => Ok((q, creds[..|creds| - 1]))
                         case Err(e) => Err(e))
  {
    var (secured, rest) :-
      if creds == [] then Ok((Fresh(rq.path), creds))
      else
        var (last, rest) := PopItem(creds);
        var secured :- Secure(rq, last, Fresh(rq.path));
        Ok((secured, rest));
    var withBody :- PrepareBody(rq, data, secured);
    Ok((withBody, rest))
  }

  /** Only the most recently inserted credential counts: what comes before it
      changes nothing in the request sent. */
  lemma OnlyLastCredentialCounts(rq: Request, a: seq<(string, Value)>, b: seq<(string, Value)>, c: (string, Value), data: BodyData)
    ensures Prepare(rq, a + [c], data).Ok? <==> Prepare(rq, b + [c], data).Ok?
    ensures Prepare(rq, a + [c], data).Ok? ==> Prepare(rq, a + [c], data).value.0 == Prepare(rq, b + [c], data).value.0
    ensures Prepare(rq, a + [c], data).Ok? ==> Prepare(rq, a + [c], data).value.1 == a
  {
    assert PopItem(a + [c]) == (c, a);
    assert PopItem(b + [c]) == (c, b);
  }

  /** The popped credential must name a requirement: when it does not, the call
      fails, whatever the credentials before it name. */
  lemma UnmatchedCredentialFails(rq: Request, creds: seq<(string, Value)>, c: (string, Value), data: BodyData)
    requires rq.op.security.Some? && c.0 !in RequirementNames(rq.op.security.value)
    ensures Prepare(rq, creds + [c], data) == Err(UnsatisfiedSecurity)
  {
    assert (creds + [c])[|creds + [c]| - 1] == c;
  }

  /** A bearer credential for the operation's only requirement, no request body:
      the request carries `Authorization: Bearer <token>` and nothing else. */
  lemma BearerScenario(rq: Request, name: string, token: Value)
    requires rq.op.security == Some([SecurityRequirement(name, [])])
    requires name in rq.schemes && rq.schemes[name] == HttpScheme("bearer", None)
    requires rq.op.requestBody.None?
    ensures Prepare(rq, [(name, token)], NoData) == Ok((Fresh(rq.path).(headers := map["Authorization" := "Bearer " + token]), []))
  {
    DefaultBearerHeader(token);
    assert rq.op.security.value[0].name == name;
    assert name in RequirementNames(rq.op.security.value);
    assert PopItem([(name, token)]) == ((name, token), []);
  }
}

=== FILE: parameters.dfy ===
/** Merging the operation-level and path-level parameter lists by name, and
    routing the caller's values into the request by location. */
module Parameters {
  import opened Base
  import opened Templates
  import opened Objects

  function NameSet(ps: seq<Parameter>): set<string> {
    set i | 0 <= i < |ps| :: ps[i].name
  }

  predicate UniqueNames(ps: seq<Parameter>) {
    forall i, j :: 0 <= i < j < |ps| ==> ps[i].name != ps[j].name
  }

  /** `q` is the entry at some position of `ps` after which no entry has its name. */
  predicate IsLastNamed(ps: seq<Parameter>, q: Parameter) {
    exists i :: 0 <= i < |ps| && ps[i] == q && forall j :: i < j < |ps| ==> ps[j].name != q.name
  }

  /** `acc[p.name] = p` on an insertion-ordered dict: a new name goes to the end,
      a known name keeps its place and takes the new entry. */
  function Upsert(acc: seq<Parameter>, p: Parameter): (r: seq<Parameter>)
    requires UniqueNames(acc)
    ensures UniqueNames(r)
    ensures NameSet(r) == NameSet(acc) + {p.name}
    ensures p in r
    ensures forall q :: q in r ==> q == p || (q in acc && q.name != p.name)
    ensures forall q :: q in acc && q.name != p.name ==> q in r
  {
    if acc == [] then
      NameSetStep([p]);
      assert [p][1..] == [];
      [p]
    else if acc[0].name == p.name then
      NameSetStep(acc);
      NameSetStep([p] + acc[1..]);
      assert ([p] + acc[1..])[1..] == acc[1..];
      assert forall q :: q in acc[1..] ==> q.name != p.name;
      [p] + acc[1..]
    else
      var rest := Upsert(acc[1..], p);
      NameSetStep(acc);
      NameSetStep([acc[0]] + rest);
      assert ([acc[0]] + rest)[1..] == rest;
      assert acc[0].name !in NameSet(acc[1..]);
      [acc[0]] + rest
  }

  /** The accepted-parameter map built by `dict.update` over `ps` in order: one
      entry per name, and on a name collision the LATER entry wins. */
  function Merge(ps: seq<Parameter>): (r: seq<Parameter>)
    ensures UniqueNames(r)
    ensures NameSet(r) == NameSet(ps)
    ensures forall q :: q in r ==> IsLastNamed(ps, q)
  {
    if ps == [] then []
    else
      var init := ps[..|ps| - 1];
      var p := ps[|ps| - 1];
      var m := Merge(init);
      assert ps == init + [p];
      MergeStep(init, p, m);
      Upsert(m, p)
  }

  /** One step of the merge: upserting the last entry into the merge of what
      precedes it gives the merge's properties for the whole list. */
  lemma MergeStep(init: seq<Parameter>, p: Parameter, m: seq<Parameter>)
    requires UniqueNames(m) && NameSet(m) == NameSet(init)
    requires forall q :: q in m ==> IsLastNamed(init, q)
    ensures NameSet(Upsert(m, p)) == NameSet(init + [p])
    ensures forall q :: q in Upsert(m, p) ==> IsLastNamed(init + [p], q)
  {
    NameSetConcat(init, [p]);
    UpsertKeepsLast(init, p, m);
  }

  /** Appending `p` and upserting it keeps every merged entry the last of its name. */
  lemma UpsertKeepsLast(init: seq<Parameter>, p: Parameter, m: seq<Parameter>)
    requires UniqueNames(m)
    requires forall q :: q in m ==> IsLastNamed(init, q)
    ensures forall q :: q in Upsert(m, p) ==> IsLastNamed(init + [p], q)
  {
    var ps := init + [p];
    forall q | q in Upsert(m, p)
      ensures IsLastNamed(ps, q)
    {
      if q == p {
        assert ps[|ps| - 1] == q;
      } else {
        assert q in m && q.name != p.name;
        var i :| 0 <= i < |init| && init[i] == q && forall j :: i < j < |init| ==> init[j].name != q.name;
        assert ps[i] == q;
        forall j | i < j < |ps|
          ensures ps[j].name != q.name
        {
          if j < |init| { assert ps[j] == init[j]; } else { assert ps[j] == p; }
        }
      }
    }
  }

  /** Two entries that are both last under the same name are the same entry. */
  lemma LastNamedUnique(ps: seq<Parameter>, a: Parameter, b: Parameter)
    requires IsLastNamed(ps, a) && IsLastNamed(ps, b) && a.name == b.name
    ensures a == b
  {
    var i :| 0 <= i < |ps| && ps[i] == a && forall j :: i < j < |ps| ==> ps[j].name != a.name;
    var k :| 0 <= k < |ps| && ps[k] == b && forall j :: k < j < |ps| ==> ps[j].name != b.name;
    assert i == k;
  }

  /** Merging the operation's list followed by the path item's list lets the
      path-level entry win a name collision: the last path-level entry of a name
      is the one accepted. */
  lemma {:induction false} LaterListWins(first: seq<Parameter>, second: seq<Parameter>, k: nat)
    requires k < |second|
    requires forall j :: k < j < |second| ==> second[j].name != second[k].name
    ensures second[k] in Merge(first + second)
    ensures forall q :: q in Merge(first + second) && q.name == second[k].name ==> q == second[k]
  {
    var ps := first + second;
    var m := Merge(ps);
    var p := second[k];
    assert ps[|first| + k] == p;
    assert IsLastNamed(ps, p) by {
      forall j | |first| + k < j < |ps|
        ensures ps[j].name != p.name
      {
        assert ps[j] == second[j - |first|];
      }
    }
    assert p.name in NameSet(ps);
    var w :| 0 <= w < |m| && m[w].name == p.name;
    LastNamedUnique(ps, m[w], p);
    forall q | q in m && q.name == p.name
      ensures q == p
    {
      LastNamedUnique(ps, q, p);
    }
  }

  lemma NameSetStep(ps: seq<Parameter>)
    requires ps != []
    ensures NameSet(ps) == {ps[0].name} + NameSet(ps[1..])
  {
    assert forall i :: 0 < i < |ps| ==> ps[i] == ps[1..][i - 1];
  }

  lemma NameSetConcat(a: seq<Parameter>, b: seq<Parameter>)
    ensures NameSet(a + b) == NameSet(a) + NameSet(b)
  {
    assert forall i :: 0 <= i < |a| ==> (a + b)[i] == a[i];
    assert forall i :: 0 <= i < |b| ==> (a + b)[|a| + i] == b[i];
  }

  /** Where a cookie parameter goes: the cookie map (aiopenapi3), or the whole
      `Cookie` header (openapi3). */
  datatype CookiePlacement = CookieMap | CookieHeader

  /** Names of accepted parameters at `loc` that the caller supplied. */
  function Supplied(accepted: seq<Parameter>, values: map<string, Value>, loc: Location): set<string> {
    set i | 0 <= i < |accepted| && accepted[i].loc == loc && accepted[i].name in values :: accepted[i].name
  }

  /** The values of the supplied path parameters, by name. */
  function PathValues(accepted: seq<Parameter>, values: map<string, Value>): map<string, Value> {
    map n | n in Supplied(accepted, values, InPath) :: values[n]
  }

  /** Every required accepted parameter was supplied. */
  predicate RequiredSupplied(accepted: seq<Parameter>, values: map<string, Value>) {
    forall i :: 0 <= i < |accepted| && accepted[i].required ==> accepted[i].name in values
  }

  /** `m` is `base` with `values[n]` written under each name in `names`. */
  predicate Overlaid(m: map<string, Value>, base: map<string, Value>, names: set<string>, values: map<string, Value>)
    requires names <= values.Keys
  {
    && m.Keys == base.Keys + names
    && forall k :: k in m ==> m[k] == if k in names then values[k] else base[k]
  }

  /** The loop over the accepted parameters: a missing required one raises; a
      missing optional one is skipped; a supplied one is routed by location, path
      values being collected for one later format. Returns the request and the
      collected path values. */
  function Route(accepted: seq<Parameter>, values: map<string, Value>, cookies: CookiePlacement,
                 req: BoundRequest, pathValues: map<string, Value>): Result<(BoundRequest, map<string, Value>)>
  {
    if accepted == [] then Ok((req, pathValues))
    else
      var p := accepted[0];
      var rest := accepted[1..];
      if p.name !in values then
        if p.required then Err(MissingParameter(p.name))
        else Route(rest, values, cookies, req, pathValues)
      else
        var v := values[p.name];
        match p.loc
        case InPath => Route(rest, values, cookies, req, pathValues[p.name := v])
        case InQuery => Route(rest, values, cookies, req.(query := req.query[p.name := v]), pathValues)
        case InHeader => Route(rest, values, cookies, req.(headers := req.headers[p.name := v]), pathValues)
        case InCookie =>
          (match cookies
           case CookieMap => Route(rest, values, cookies, req.(cookies := req.cookies[p.name := v]), pathValues)
           case CookieHeader => Route(rest, values, cookies, req.(headers := req.headers["Cookie" := v]), pathValues))
        case _ => Route(rest, values, cookies, req, pathValues)
  }

  lemma SuppliedStep(accepted: seq<Parameter>, values: map<string, Value>, loc: Location)
    requires accepted != []
    ensures Supplied(accepted, values, loc) ==
      (if accepted[0].loc == loc && accepted[0].name in values then {accepted[0].name} else {})
      + Supplied(accepted[1..], values, loc)
  {
    assert forall i :: 0 < i < |accepted| ==> accepted[i] == accepted[1..][i - 1];
  }

  lemma SuppliedWithin(accepted: seq<Parameter>, values: map<string, Value>, loc: Location)
    ensures Supplied(accepted, values, loc) <= NameSet(accepted)
    ensures Supplied(accepted, values, loc) <= values.Keys
  {
  }

  /** The map of the request that a location writes to under the cookie-map placement. */
  function MapAt(req: BoundRequest, loc: Location): map<string, Value> {
    match loc
    case InQuery => req.query
    case InHeader => req.headers
    case InCookie => req.cookies
    case _ => map[]
  }

  predicate Routed(loc: Location) {
    loc == InQuery || loc == InHeader || loc == InCookie
  }

  lemma OverlaidStep(m: map<string, Value>, base: map<string, Value>, n: string, names: set<string>, values: map<string, Value>)
    requires n in values && names <= values.Keys && n !in names
    requires Overlaid(m, base[n := values[n]], names, values)
    ensures Overlaid(m, base, {n} + names, values)
  {
  }

  /** The loop fails exactly when a required parameter is missing, and then
      names one such parameter. */
  lemma {:induction false} RouteFailsIffRequiredMissing(accepted: seq<Parameter>, values: map<string, Value>, cookies: CookiePlacement,
                                                        req: BoundRequest, pathValues: map<string, Value>)
    ensures var r := Route(accepted, values, cookies, req, pathValues);
      && (r.Ok? <==> RequiredSupplied(accepted, values))
      && (r.Err? ==> r.error.MissingParameter? && r.error.name in NameSet(accepted) && r.error.name !in values)
  {
    if accepted != [] {
      var p := accepted[0];
      var rest := accepted[1..];
      NameSetStep(accepted);
      assert RequiredSupplied(accepted, values) <==> (p.required ==> p.name in values) && RequiredSupplied(rest, values) by {
        assert forall i :: 0 < i < |accepted| ==> accepted[i] == rest[i - 1];
      }
      if p.name !in values {
        RouteFailsIffRequiredMissing(rest, values, cookies, req, pathValues);
      } else {
        var v := values[p.name];
        match p.loc
        case InPath => RouteFailsIffRequiredMissing(rest, values, cookies, req, pathValues[p.name := v]);
        case InQuery => RouteFailsIffRequiredMissing(rest, values, cookies, req.(query := req.query[p.name := v]), pathValues);
        case InHeader => RouteFailsIffRequiredMissing(rest, values, cookies, req.(headers := req.headers[p.name := v]), pathValues);
        case InCookie => {
          match cookies
          case CookieMap => RouteFailsIffRequiredMissing(rest, values, cookies, req.(cookies := req.cookies[p.name := v]), pathValues);
          case CookieHeader => RouteFailsIffRequiredMissing(rest, values, cookies, req.(headers := req.headers["Cookie" := v]), pathValues);
        }
        case InBody => RouteFailsIffRequiredMissing(rest, values, cookies, req, pathValues);
        case InOther(_) => RouteFailsIffRequiredMissing(rest, values, cookies, req, pathValues);
      }
    }
  }

  /** What one supplied parameter does to the request and the collected path
      values: the loop body of the routing loop for a present value. */
  function RouteStep(p: Parameter, v: Value, cookies: CookiePlacement,
                     req: BoundRequest, pathValues: map<string, Value>): (BoundRequest, map<string, Value>)
  {
    match p.loc
    case InPath => (req, pathValues[p.name := v])
    case InQuery => (req.(query := req.query[p.name := v]), pathValues)
    case InHeader => (req.(headers := req.headers[p.name := v]), pathValues)
    case InCookie =>
      (match cookies
       case CookieMap => (req.(cookies := req.cookies[p.name := v]), pathValues)
       case CookieHeader => (req.(headers := req.headers["Cookie" := v]), pathValues))
    case _ => (req, pathValues)
  }

  /** A supplied first parameter: the loop continues from its step. */
  lemma RouteUnfold(accepted: seq<Parameter>, values: map<string, Value>, cookies: CookiePlacement,
                    req: BoundRequest, pathValues: map<string, Value>)
    requires accepted != [] && accepted[0].name in values
    ensures var (req', pv') := RouteStep(accepted[0], values[accepted[0].name], cookies, req, pathValues);
      Route(accepted, values, cookies, req, pathValues) == Route(accepted[1..], values, cookies, req', pv')
  {
  }

  /** The step writes `v` under the parameter's name into the map of its own
      location, and leaves the map of every other location alone. */
  lemma RouteStepMapAt(p: Parameter, v: Value, cookies: CookiePlacement, loc: Location,
                       req: BoundRequest, pathValues: map<string, Value>)
    requires Routed(loc) && (cookies == CookieHeader ==> loc == InQuery)
    ensures MapAt(RouteStep(p, v, cookies, req, pathValues).0, loc)
      == if p.loc == loc then MapAt(req, loc)[p.name := v] else MapAt(req, loc)
  {
  }

  /** On success each supplied query, header or cookie value lands in that map
      under the parameter's name, and no other entry of that map changes. Under
      the cookie-header placement only the query map is claimed, since cookies
      then share the header map. */
  lemma {:induction false} RoutePlacesValues(accepted: seq<Parameter>, values: map<string, Value>, cookies: CookiePlacement,
                                             loc: Location, req: BoundRequest, pathValues: map<string, Value>)
    requires UniqueNames(accepted) && Routed(loc)
    requires cookies == CookieHeader ==> loc == InQuery
    requires Route(accepted, values, cookies, req, pathValues).Ok?
    ensures Overlaid(MapAt(Route(accepted, values, cookies, req, pathValues).value.0, loc),
                     MapAt(req, loc), Supplied(accepted, values, loc), values)
  {
    if accepted != [] {
      var p := accepted[0];
      var rest := accepted[1..];
      assert UniqueNames(rest);
      SuppliedStep(accepted, values, loc);
      NameSetStep(accepted);
      SuppliedWithin(rest, values, loc);
      if p.name !in values {
        RoutePlacesValues(rest, values, cookies, loc, req, pathValues);
      } else {
        var v := values[p.name];
        var (req', pv') := RouteStep(p, v, cookies, req, pathValues);
        RouteUnfold(accepted, values, cookies, req, pathValues);
        RoutePlacesValues(rest, values, cookies, loc, req', pv');
        RouteStepMapAt(p, v, cookies, loc, req, pathValues);
        if p.loc == loc {
          OverlaidStep(MapAt(Route(rest, values, cookies, req', pv').value.0, loc), MapAt(req, loc), p.name,
                       Supplied(rest, values, loc), values);
        }
      }
    }
  }

  /** On success the path values collected are exactly the supplied path
      parameters, and the URL, authentication, certificate and body are untouched. */
  lemma {:induction false} RouteCollectsPathValues(accepted: seq<Parameter>, values: map<string, Value>, cookies: CookiePlacement,
                                                   req: BoundRequest, pathValues: map<string, Value>)
    requires UniqueNames(accepted)
    requires Route(accepted, values, cookies, req, pathValues).Ok?
    ensures var (out, pv) := Route(accepted, values, cookies, req, pathValues).value;
      && Overlaid(pv, pathValues, Supplied(accepted, values, InPath), values)
      && out.url == req.url && out.auth == req.auth && out.cert == req.cert && out.body == req.body
  {
    if accepted != [] {
      var p := accepted[0];
      var rest := accepted[1..];
      assert UniqueNames(rest);
      SuppliedStep(accepted, values, InPath);
      NameSetStep(accepted);
      SuppliedWithin(rest, values, InPath);
      if p.name !in values {
        RouteCollectsPathValues(rest, values, cookies, req, pathValues);
      } else {
        var v := values[p.name];
        match p.loc
        case InPath =>
          RouteCollectsPathValues(rest, values, cookies, req, pathValues[p.name := v]);
          OverlaidStep(Route(rest, values, cookies, req, pathValues[p.name := v]).value.1, pathValues, p.name, Supplied(rest, values, InPath), values);
        case InQuery => RouteCollectsPathValues(rest, values, cookies, req.(query := req.query[p.name := v]), pathValues);
        case InHeader => RouteCollectsPathValues(rest, values, cookies, req.(headers := req.headers[p.name := v]), pathValues);
        case InCookie => {
          match cookies
          case CookieMap => RouteCollectsPathValues(rest, values, cookies, req.(cookies := req.cookies[p.name := v]), pathValues);
          case CookieHeader => RouteCollectsPathValues(rest, values, cookies, req.(headers := req.headers["Cookie" := v]), pathValues);
        }
        case InBody => RouteCollectsPathValues(rest, values, cookies, req, pathValues);
        case InOther(_) => RouteCollectsPathValues(rest, values, cookies, req, pathValues);
      }
    }
  }

  /** The loop reads only the values of accepted names: values under any other
      name are ignored. */
  lemma {:induction false} RouteIgnoresUnknownNames(accepted: seq<Parameter>, a: map<string, Value>, b: map<string, Value>,
                                                   cookies: CookiePlacement, req: BoundRequest, pathValues: map<string, Value>)
    requires forall n :: n in NameSet(accepted) ==> (n in a <==> n in b) && (n in a ==> a[n] == b[n])
    ensures Route(accepted, a, cookies, req, pathValues) == Route(accepted, b, cookies, req, pathValues)
  {
    if accepted != [] {
      assert NameSet(accepted) == {accepted[0].name} + NameSet(accepted[1..]) by {
        assert forall i :: 0 < i < |accepted| ==> accepted[i] == accepted[1..][i - 1];
      }
      var p := accepted[0];
      var rest := accepted[1..];
      if p.name in a {
        var v := a[p.name];
        match p.loc
        case InPath => RouteIgnoresUnknownNames(rest, a, b, cookies, req, pathValues[p.name := v]);
        case InQuery => RouteIgnoresUnknownNames(rest, a, b, cookies, req.(query := req.query[p.name := v]), pathValues);
        case InHeader => RouteIgnoresUnknownNames(rest, a, b, cookies, req.(headers := req.headers[p.name := v]), pathValues);
        case InCookie => {
          match cookies
          case CookieMap => RouteIgnoresUnknownNames(rest, a, b, cookies, req.(cookies := req.cookies[p.name := v]), pathValues);
          case CookieHeader => RouteIgnoresUnknownNames(rest, a, b, cookies, req.(headers := req.headers["Cookie" := v]), pathValues);
        }
        case InBody => RouteIgnoresUnknownNames(rest, a, b, cookies, req, pathValues);
        case InOther(_) => RouteIgnoresUnknownNames(rest, a, b, cookies, req, pathValues);
      } else {
        RouteIgnoresUnknownNames(rest, a, b, cookies, req, pathValues);
      }
    }
  }

  /** When no cookie parameter is supplied, it makes no difference whether
      cookies would go to the cookie map or to the `Cookie` header. */
  lemma {:induction false} RouteCookiePlacementIrrelevant(accepted: seq<Parameter>, values: map<string, Value>,
                                                          req: BoundRequest, pathValues: map<string, Value>)
    requires Supplied(accepted, values, InCookie) == {}
    ensures Route(accepted, values, CookieHeader, req, pathValues) == Route(accepted, values, CookieMap, req, pathValues)
  {
    if accepted != [] {
      var p := accepted[0];
      var rest := accepted[1..];
      SuppliedStep(accepted, values, InCookie);
      if p.name !in values {
        RouteCookiePlacementIrrelevant(rest, values, req, pathValues);
      } else {
        var v := values[p.name];
        match p.loc
        case InPath => RouteCookiePlacementIrrelevant(rest, values, req, pathValues[p.name := v]);
        case InQuery => RouteCookiePlacementIrrelevant(rest, values, req.(query := req.query[p.name := v]), pathValues);
        case InHeader => RouteCookiePlacementIrrelevant(rest, values, req.(headers := req.headers[p.name := v]), pathValues);
        case InCookie => assert false;
        case InBody => RouteCookiePlacementIrrelevant(rest, values, req, pathValues);
        case InOther(_) => RouteCookiePlacementIrrelevant(rest, values, req, pathValues);
      }
    }
  }

  /** The whole binding step with one format at the end: route every value, then
      fill the path template from all the collected path values at once. */
  function BindCollected(accepted: seq<Parameter>, values: map<string, Value>, cookies: CookiePlacement,
                         req: BoundRequest): Result<BoundRequest>
  {
    var (out, pv) :- Route(accepted, values, cookies, req, map[]);
    var url :- Format(out.url, pv);
    Ok(out.(url := [Lit(url)]))
  }

  /** The binding step as a whole: it succeeds exactly when every required
      parameter is supplied and every field of the path template has a supplied
      path parameter; the path is then formatted once from all path values and
      becomes plain text; each query value is in place; authentication,
      certificate and body are untouched. Under the cookie-map placement the
      header and cookie maps get their values the same way. */
  lemma BindCollectedSpec(accepted: seq<Parameter>, values: map<string, Value>, cookies: CookiePlacement, req: BoundRequest)
    requires UniqueNames(accepted)
    ensures var r := BindCollected(accepted, values, cookies, req);
      && (r.Ok? <==> RequiredSupplied(accepted, values) && HoleNames(req.url) <= Supplied(accepted, values, InPath))
      && (!RequiredSupplied(accepted, values) ==> r.Err? && r.error.MissingParameter? && r.error.name !in values)
      && (r.Ok? ==> Format(req.url, PathValues(accepted, values)).Ok?
                    && r.value.url == [Lit(Format(req.url, PathValues(accepted, values)).value)])
      && (r.Ok? ==> Overlaid(r.value.query, req.query, Supplied(accepted, values, InQuery), values))
      && (r.Ok? && cookies == CookieMap ==>
            && Overlaid(r.value.headers, req.headers, Supplied(accepted, values, InHeader), values)
            && Overlaid(r.value.cookies, req.cookies, Supplied(accepted, values, InCookie), values))
      && (r.Ok? ==> r.value.auth == req.auth && r.value.cert == req.cert && r.value.body == req.body)
  {
    RouteFailsIffRequiredMissing(accepted, values, cookies, req, map[]);
    var routed := Route(accepted, values, cookies, req, map[]);
    if routed.Ok? {
      SuppliedWithin(accepted, values, InPath);
      RouteCollectsPathValues(accepted, values, cookies, req, map[]);
      assert routed.value.1 == PathValues(accepted, values);
      RoutePlacesValues(accepted, values, cookies, InQuery, req, map[]);
      if cookies == CookieMap {
        RoutePlacesValues(accepted, values, cookies, InHeader, req, map[]);
        RoutePlacesValues(accepted, values, cookies, InCookie, req, map[]);
      }
    }
  }
}

=== FILE: responses.dfy ===
/** Matching a received response against the operation's declared responses:
    the status code (section 4.7.17 of the OpenAPI Specification 3.0.1, with the
    `default` fallback) and the media type (with wildcard subtype ranges,
    section 5.3.2 of RFC 7231). */
module Responses {
  import opened Base
  import opened Text
  import opened Objects

  /** The declared response for a status: the exact code string, else `default`,
      else UnexpectedStatus. */
  function MatchStatus<R>(responses: map<string, R>, status: int): (r: Result<R>)
    ensures r.Ok? <==> StatusString(status) in responses || "default" in responses
    ensures r.Err? ==> r.error == UnexpectedStatus(StatusString(status))
    ensures StatusString(status) in responses ==> r == Ok(responses[StatusString(status)])
    ensures StatusString(status) !in responses && "default" in responses ==> r == Ok(responses["default"])
  {
    var code := StatusString(status);
    if code in responses then Ok(responses[code])
    else if "default" in responses then Ok(responses["default"])
    else Err(UnexpectedStatus(code))
  }

  /** The `default` entry is used exactly for the statuses that have no entry of
      their own, and an entry of one status never answers another. */
  lemma DefaultOnlyForUndeclared<R>(responses: map<string, R>, status: int, other: int)
    requires "default" in responses
    requires StatusString(other) in responses && other != status
    requires StatusString(status) !in responses
    ensures MatchStatus(responses, status) == Ok(responses["default"])
    ensures MatchStatus(responses, other) == Ok(responses[StatusString(other)])
    ensures StatusString(other) != StatusString(status)
  {
    if StatusString(other) == StatusString(status) {
      StatusStringInjective(other, status);
    }
  }

  /** With `200` and `default` declared, 404 falls back to the
      default and 200 takes its own entry. */
  lemma StatusScenario(a: string, b: string)
    ensures MatchStatus(map["200" := a, "default" := b], 404) == Ok(b)
    ensures MatchStatus(map["200" := a, "default" := b], 200) == Ok(a)
  {
    assert StatusString(404) == "404" by {
      assert NatToDecimal(404) == NatToDecimal(40) + [DigitChar(4)];
      assert NatToDecimal(40) == NatToDecimal(4) + [DigitChar(0)];
    }
    assert StatusString(200) == "200" by {
      assert NatToDecimal(200) == NatToDecimal(20) + [DigitChar(0)];
      assert NatToDecimal(20) == NatToDecimal(2) + [DigitChar(0)];
    }
  }

  /** aiopenapi3's JSON test: the header lower-cased, cut at the first `;`, is
      `application/json`. */
  predicate IsJsonMediaType(contentType: string) {
    PrefixBefore(Lower(contentType), ';') == "application/json"
  }

  /** After `application/json`, a parameter list starting with `;` (or nothing)
      passes the JSON test and any other continuation fails it; and the test
      does not see letter case. */
  lemma IsJsonMediaTypeMeans(params: string, contentType: string)
    ensures IsJsonMediaType("application/json" + params) <==> params == [] || params[0] == ';'
    ensures IsJsonMediaType(Lower(contentType)) == IsJsonMediaType(contentType)
  {
    var j := "application/json";
    assert NoUpper(j) && ';' !in j;
    PrefixBeforeLowerConcat(j, params, ';');
    assert params != [] ==> (LowerChar(params[0]) == ';' <==> params[0] == ';');
    LowerIdempotent(contentType);
  }

  /** The wildcard media range of the header's primary type: everything before
      the first slash, then a slash and an asterisk. */
  function MediaRange(contentType: string): (r: string)
    ensures |r| >= 2 && r[|r| - 2..] == "/*"
    ensures r[..|r| - 2] <= contentType && '/' !in r[..|r| - 2]
    ensures '/' in contentType ==> |r| - 2 < |contentType| && contentType[|r| - 2] == '/'
  {
    PrefixBefore(contentType, '/') + "/*"
  }

  /** The OpenAPI 3 client's media-type lookup: the header string exactly, else
      (when it has a slash) its wildcard range, else UnexpectedContentType. No
      parameter is stripped and no case is folded. */
  function LookupMedia<S>(content: map<string, S>, contentType: string): (r: Result<S>)
    ensures contentType in content ==> r == Ok(content[contentType])
    ensures r.Err? <==> contentType !in content && ('/' !in contentType || MediaRange(contentType) !in content)
    ensures r.Err? ==> r.error == UnexpectedContentType(contentType)
    ensures r.Ok? && contentType !in content ==> r == Ok(content[MediaRange(contentType)])
  {
    if contentType in content then Ok(content[contentType])
    else if '/' in contentType && MediaRange(contentType) in content then Ok(content[MediaRange(contentType)])
    else Err(UnexpectedContentType(contentType))
  }

  /** The wildcard range of a header made of `t`, a slash and `rest` is `t`
      followed by a slash and an asterisk, whatever `rest` holds. */
  lemma {:induction false} MediaRangeOfType(t: string, rest: string)
    requires '/' !in t
    ensures MediaRange(t + "/" + rest) == t + "/*"
  {
    PrefixBeforeConcat(t, "/" + rest, '/');
    assert t + "/" + rest == t + ("/" + rest);
  }

  /** `text/plain` finds the wildcard entry of the `text` type when nothing
      matches exactly. */
  lemma RangeScenario<S>(c: S)
    ensures LookupMedia(map["text/*" := c], "text/plain") == Ok(c)
  {
    var ct := "text" + "/" + "plain";
    assert ct == "text/plain";
    MediaRangeOfType("text", "plain");
    assert "text" + "/*" == "text/*";
    assert MediaRange("text/plain") == "text/*";
    assert |ct| != |"text/*"|;
    assert ct[4] == '/';
  }

  /** The lookup keeps the `;charset` parameter, so a header
      `application/json; charset=utf-8` finds no `application/json` entry. */
  lemma CharsetNotStripped<S>(a: S)
    ensures LookupMedia(map["application/json" := a], "application/json; charset=utf-8").Err?
  {
    var t := "application";
    var ct := t + "/" + "json; charset=utf-8";
    assert ct == "application/json; charset=utf-8";
    MediaRangeOfType(t, "json; charset=utf-8");
    assert |ct| != |"application/json"|;
    assert |t + "/*"| != |"application/json"|;
  }

  /** The response pipeline: `received` hook, JSON parse, `parsed` hook, model
      construction, `unmarshalled` hook. A response declared without a schema
      parses the text and then cannot build a model: AttributeError. */
  function DecodeBody(hooks: Hooks, codec: Codec, operationId: string, schema: Option<Schema>, text: string): (r: Result<Json>)
    ensures r.Err? ==> r.error in {MalformedJson, RuntimeFault, SchemaViolation}
    ensures r.Ok? <==> schema.Some? && codec.loads(hooks.received(operationId, text)).Some?
                       && codec.model(schema.value, hooks.parsed(operationId, codec.loads(hooks.received(operationId, text)).value)).Some?
    ensures (r.Err? && r.error == MalformedJson) <==> codec.loads(hooks.received(operationId, text)).None?
    ensures codec.loads(hooks.received(operationId, text)).Some? && schema.None? ==> r == Err(RuntimeFault)
    ensures r.Ok? ==>
      && schema.Some?
      && codec.loads(hooks.received(operationId, text)).Some?
      && var parsed := hooks.parsed(operationId, codec.loads(hooks.received(operationId, text)).value);
         && codec.model(schema.value, parsed).Some?
         && r.value == hooks.unmarshalled(operationId, codec.model(schema.value, parsed).value)
    ensures schema.Some? && codec.loads(hooks.received(operationId, text)).Some?
            && codec.model(schema.value, hooks.parsed(operationId, codec.loads(hooks.received(operationId, text)).value)).None?
            ==> r == Err(SchemaViolation)
  {
    var parsed :- match codec.loads(hooks.received(operationId, text))
      case Some(j) => Ok(j)
      case None => Err(MalformedJson);
    var s :- match schema
      case Some(s) => Ok(s)
      case None => Err(RuntimeFault);
    var typed :- match codec.model(s, hooks.parsed(operationId, parsed))
      case Some(m) => Ok(m)
      case None => Err(SchemaViolation);
    Ok(hooks.unmarshalled(operationId, typed))
  }

  /** A decoded value as the result of `request`; a decoding error passes through. */
  function AsContent(d: Result<Json>): (r: Result<Decoded>)
    ensures r.Ok? <==> d.Ok?
    ensures d.Ok? ==> r.value == Content(d.value)
    ensures d.Err? ==> r.error == d.error
  {
    match d
    case Ok(v) => Ok(Content(v))
    case Err(e) => Err(e)
  }
}

=== FILE: security.dfy ===
/** Choosing the one security requirement to apply. Section 4.7.30 of the
    OpenAPI Specification 3.0.1: only one of the listed Security Requirement
    Objects needs to be satisfied. The caller's credentials are an ordered list
    of (scheme name, value), in dict insertion order. */
module Security {
  import opened Base
  import opened Objects

  function RequirementNames(reqs: seq<SecurityRequirement>): set<string> {
    set i | 0 <= i < |reqs| :: reqs[i].name
  }

  /** Position of the first requirement called `name`. */
  function FirstNamed(reqs: seq<SecurityRequirement>, name: string): (r: Option<nat>)
    ensures r.None? <==> name !in RequirementNames(reqs)
    ensures r.Some? ==> r.value < |reqs| && reqs[r.value].name == name
    ensures r.Some? ==> forall j :: 0 <= j < r.value ==> reqs[j].name != name
  {
    if reqs == [] then None
    else if reqs[0].name == name then Some(0)
    else
      var rest := FirstNamed(reqs[1..], name);
      assert RequirementNames(reqs) == {reqs[0].name} + RequirementNames(reqs[1..]) by {
        assert forall i :: 0 < i < |reqs| ==> reqs[i] == reqs[1..][i - 1];
      }
      match rest
      case None => None
      case Some(k) => Some(k + 1)
  }

  /** Position of the first credential, in caller order, whose key names some
      requirement; scanning stops there. */
  function FirstMatch(creds: seq<(string, Value)>, reqs: seq<SecurityRequirement>): (r: Option<nat>)
    ensures r.None? <==> forall i :: 0 <= i < |creds| ==> creds[i].0 !in RequirementNames(reqs)
    ensures r.Some? ==> r.value < |creds| && creds[r.value].0 in RequirementNames(reqs)
    ensures r.Some? ==> forall j :: 0 <= j < r.value ==> creds[j].0 !in RequirementNames(reqs)
  {
    if creds == [] then None
    else if creds[0].0 in RequirementNames(reqs) then Some(0)
    else
      assert forall i :: 0 < i < |creds| ==> creds[i] == creds[1..][i - 1];
      match FirstMatch(creds[1..], reqs)
      case None => None
      case Some(k) => Some(k + 1)
  }

  /** The requirement a credential list selects, with the value it is applied
      with: the first credential naming a requirement, and the first requirement
      of that name. */
  function Select(creds: seq<(string, Value)>, reqs: seq<SecurityRequirement>): (r: Option<(SecurityRequirement, Value)>)
    ensures r.None? <==> forall i :: 0 <= i < |creds| ==> creds[i].0 !in RequirementNames(reqs)
    ensures r.Some? ==> exists k :: 0 <= k < |reqs| && reqs[k] == r.value.0 &&
                                    forall j :: 0 <= j < k ==> reqs[j].name != r.value.0.name
    ensures r.Some? ==> exists i :: 0 <= i < |creds| && creds[i] == (r.value.0.name, r.value.1) &&
                                    forall j :: 0 <= j < i ==> creds[j].0 !in RequirementNames(reqs)
  {
    match FirstMatch(creds, reqs)
    case None => None
    case Some(i) =>
      var k := FirstNamed(reqs, creds[i].0).value;
      Some((reqs[k], creds[i].1))
  }

  /** One unmatched credential in front shifts the match by one. */
  lemma FirstMatchStep(c: (string, Value), rest: seq<(string, Value)>, reqs: seq<SecurityRequirement>)
    requires c.0 !in RequirementNames(reqs)
    ensures FirstMatch([c] + rest, reqs) == match FirstMatch(rest, reqs)
      case None => None
      case Some(k) => Some(k + 1)
  {
    assert ([c] + rest)[0] == c;
    assert ([c] + rest)[1..] == rest;
  }

  /** Unmatched credentials in front shift the match by their number. */
  lemma {:induction false} FirstMatchSkipsUnmatched(skipped: seq<(string, Value)>, creds: seq<(string, Value)>,
                                                    reqs: seq<SecurityRequirement>)
    requires forall i :: 0 <= i < |skipped| ==> skipped[i].0 !in RequirementNames(reqs)
    ensures FirstMatch(skipped + creds, reqs) == match FirstMatch(creds, reqs)
      case None => None
      case Some(k) => Some(k + |skipped|)
  {
    if skipped == [] {
      assert skipped + creds == creds;
    } else {
      var tail := skipped[1..];
      FirstMatchSkipsUnmatched(tail, creds, reqs);
      assert skipped + creds == [skipped[0]] + (tail + creds);
      FirstMatchStep(skipped[0], tail + creds, reqs);
    }
  }

  /** Credentials whose keys name no requirement change nothing when put in
      front: the selection is the first matching credential, not any other. */
  lemma SelectSkipsUnmatched(skipped: seq<(string, Value)>, creds: seq<(string, Value)>,
                             reqs: seq<SecurityRequirement>)
    requires forall i :: 0 <= i < |skipped| ==> skipped[i].0 !in RequirementNames(reqs)
    ensures Select(skipped + creds, reqs) == Select(creds, reqs)
  {
    FirstMatchSkipsUnmatched(skipped, creds, reqs);
    match FirstMatch(creds, reqs)
    case None =>
    case Some(k) =>
      assert (skipped + creds)[k + |skipped|] == creds[k];
  }

  /** When the first credential names a requirement, it is the one applied,
      whatever follows it. */
  lemma SelectFirstWins(name: string, v: Value, rest: seq<(string, Value)>, reqs: seq<SecurityRequirement>)
    requires name in RequirementNames(reqs)
    ensures Select([(name, v)] + rest, reqs).Some?
    ensures Select([(name, v)] + rest, reqs).value.0.name == name
    ensures Select([(name, v)] + rest, reqs).value.1 == v
  {
    assert ([(name, v)] + rest)[0] == (name, v);
  }
}

=== FILE: templates.dfy ===
/** Path templates and the part of Python's `str.format` that the binder relies on.
    A template is a sequence of literal text and `{name}` fields; `Format` fills
    the fields from keyword arguments and fails with KeyError on a field name it
    was not given, as `str.format(**kwargs)` does. */
module Templates {
  import opened Base
  import opened Text

  datatype Segment = Lit(text: string) | Hole(name: string)

  type Template = seq<Segment>

  /** The field names a template mentions. */
  function HoleNames(t: Template): set<string> {
    if t == [] then {}
    else (if t[0].Hole? then {t[0].name} else {}) + HoleNames(t[1..])
  }

  /** No fields left: the template is plain text. */
  predicate Literal(t: Template) {
    forall i :: 0 <= i < |t| ==> t[i].Lit?
  }

  /** Every literal piece is free of braces. */
  predicate LiteralsBraceFree(t: Template) {
    forall i :: 0 <= i < |t| ==> t[i].Lit? ==> BraceFree(t[i].text)
  }

  /** The text of a template with its fields written back as `{name}`. */
  function Render(t: Template): string {
    if t == [] then ""
    else
      (match t[0]
       case Lit(s) => s
       case Hole(n) => "{" + n + "}")
      + Render(t[1..])
  }

  /** The template with every field whose name is a key of `args` replaced, in
      place, by the text of that argument. */
  function Fill(t: Template, args: map<string, string>): Template {
    seq(|t|, i requires 0 <= i < |t| =>
      if t[i].Hole? && t[i].name in args then Lit(args[t[i].name]) else t[i])
  }

  /** `template.format(**args)`: fields are filled left to right, and the first
      field whose name is not a key of `args` raises KeyError. Extra keys are ignored.
      On success the text is the template with each field replaced by its value. */
  function Format(t: Template, args: map<string, string>): (r: Result<string>)
    ensures r.Ok? <==> HoleNames(t) <= args.Keys
    ensures r.Err? ==> r.error.UnresolvedPlaceholder? && r.error.name in HoleNames(t) && r.error.name !in args
    ensures r.Ok? ==> r.value == Render(Fill(t, args))
    ensures Literal(t) ==> r == Ok(Render(t))
  {
    if t == [] then Ok("")
    else
      var head :- match t[0]
        case Lit(s) => Ok(s)
        case Hole(n) => if n in args then Ok(args[n]) else Err(UnresolvedPlaceholder(n));
      var rest :- Format(t[1..], args);
      assert Fill(t, args)[1..] == Fill(t[1..], args);
      Ok(head + rest)
  }

  /** Each supplied value lands in its field: a template whose only field is
      `name` formats to the text before it, the value, and the text after it. */
  lemma FormatPlacesValue(before: string, name: string, after: string, args: map<string, string>)
    requires name in args
    ensures Format([Lit(before), Hole(name), Lit(after)], args) == Ok(before + args[name] + after)
  {
    var t := [Lit(before), Hole(name), Lit(after)];
    assert t[1..][1..][1..] == [];
    var f := [Lit(before), Lit(args[name]), Lit(after)];
    assert Fill(t, args) == f;
    assert f[1..][1..][1..] == [];
    assert Render(f[1..][1..]) == after + "";
    assert Render(f) == before + (args[name] + (after + ""));
    assert before + (args[name] + (after + "")) == before + args[name] + after;
  }

  /** When every field is supplied, the formatted path has
      no `{` or `}` left, provided neither the template's text nor the values bring any. */
  lemma {:induction false} FormatLeavesNoBraces(t: Template, args: map<string, string>)
    requires HoleNames(t) <= args.Keys
    requires LiteralsBraceFree(t)
    requires forall k :: k in args ==> BraceFree(args[k])
    ensures Format(t, args).Ok? && BraceFree(Format(t, args).value)
  {
    if t != [] {
      assert HoleNames(t[1..]) <= HoleNames(t);
      assert LiteralsBraceFree(t[1..]) by {
        forall i | 0 <= i < |t[1..]| && t[1..][i].Lit?
          ensures BraceFree(t[1..][i].text)
        {
          assert t[1..][i] == t[i + 1];
        }
      }
      FormatLeavesNoBraces(t[1..], args);
      var head := match t[0] case Lit(s) => s case Hole(n) => args[n];
      assert BraceFree(head);
      var rest := Format(t[1..], args).value;
      assert Format(t, args).value == head + rest;
      assert forall i :: 0 <= i < |head + rest| ==> (head + rest)[i] == if i < |head| then head[i] else rest[i - |head|];
    }
  }

  /** Which keys of `args` a template actually reads: formatting only depends on those. */
  lemma {:induction false} FormatReadsOnlyItsFields(t: Template, a: map<string, string>, b: map<string, string>)
    requires forall n :: n in HoleNames(t) ==> (n in a <==> n in b) && (n in a ==> a[n] == b[n])
    ensures Format(t, a) == Format(t, b)
  {
    if t != [] {
      assert HoleNames(t[1..]) <= HoleNames(t);
      FormatReadsOnlyItsFields(t[1..], a, b);
    }
  }

  /** Number of automatically numbered fields (`{}`) in a template. */
  function AutoFields(t: Template): nat {
    if t == [] then 0
    else (if t[0] == Hole("") then 1 else 0) + AutoFields(t[1..])
  }

  /** Turns every `{}` into `{0}`, the field it stands for when it is the first. */
  function NumberAutoFields(t: Template): (r: Template)
    ensures |r| == |t|
    ensures forall i :: 0 <= i < |t| ==> r[i] == (if t[i] == Hole("") then Hole("0") else t[i])
  {
    if t == [] then [] else [if t[0] == Hole("") then Hole("0") else t[0]] + NumberAutoFields(t[1..])
  }

  /** `template.format(v)` with one positional argument. A second `{}` asks for
      argument 1 (IndexError); mixing `{}` with `{0}` is a ValueError; any other
      field name is missing. */
  function FormatPositional(t: Template, v: string): (r: Result<string>)
    ensures r.Ok? <==> AutoFields(t) <= 1 && !(AutoFields(t) == 1 && "0" in HoleNames(t)) && HoleNames(t) <= {"", "0"}
    ensures r.Ok? ==> r.value == Render(Fill(NumberAutoFields(t), map["0" := v]))
  {
    if AutoFields(t) > 1 then Err(BadFormatString)
    else if AutoFields(t) == 1 && "0" in HoleNames(t) then Err(BadFormatString)
    else
      NumberedHoleNames(t);
      Format(NumberAutoFields(t), map["0" := v])
  }

  lemma {:induction false} NumberedHoleNames(t: Template)
    ensures HoleNames(NumberAutoFields(t)) == (HoleNames(t) - {""}) + (if AutoFields(t) > 0 then {"0"} else {})
  {
    if t != [] {
      NumberedHoleNames(t[1..]);
      assert NumberAutoFields(t)[1..] == NumberAutoFields(t[1..]);
    }
  }

  /** The one positional value lands in the automatic field: `a{}b` formats to
      `a`, the value, `b`. */
  lemma PositionalPlacesValue(before: string, after: string, v: string)
    ensures FormatPositional([Lit(before), Hole(""), Lit(after)], v) == Ok(before + v + after)
  {
    var t := [Lit(before), Hole(""), Lit(after)];
    assert t[1..] == [Hole(""), Lit(after)];
    assert t[1..][1..] == [Lit(after)];
    assert t[1..][1..][1..] == [];
    assert AutoFields(t[1..][1..]) == 0 && HoleNames(t[1..][1..]) == {};
    assert AutoFields(t[1..]) == 1 && HoleNames(t[1..]) == {""};
    assert AutoFields(t) == 1;
    assert HoleNames(t) == {""};
    assert NumberAutoFields(t) == [Lit(before), Hole("0"), Lit(after)];
    FormatPlacesValue(before, "0", after, map["0" := v]);
  }

  /** `Bearer {}`, the header format used when a scheme gives none. */
  const DefaultBearerFormat: Template := [Lit("Bearer "), Hole("")]

  /** `bearerFormat or 'Bearer {}'`: an absent or empty format falls back to the default. */
  function HeaderFormat(bearerFormat: Option<Template>): Template {
    match bearerFormat
    case Some(t) => if Render(t) == "" then DefaultBearerFormat else t
    case None => DefaultBearerFormat
  }

  /** With the default format the Authorization header is the word `Bearer`, one
      space and the token, as section 2.1 of RFC 6750 lays it out. */
  lemma DefaultBearerHeader(token: string)
    ensures FormatPositional(DefaultBearerFormat, token) == Ok("Bearer " + token)
  {
    var t := DefaultBearerFormat;
    assert AutoFields(t) == 1;
    assert HoleNames(t) == {""};
    assert NumberAutoFields(t) == [Lit("Bearer "), Hole("0")];
    var n := NumberAutoFields(t);
    assert n[1..][1..] == [];
    assert Format(n[1..], map["0" := token]) == Ok(token + "");
    assert "Bearer " + (token + "") == "Bearer " + token;
  }
}

=== FILE: text.dfy ===
/** String helpers the source takes from Python's `str`: `lower`, the first
    field of `partition`/`split`, and `str(int)` for status codes. */
module Text {

  /** `s` has no curly brace, so `str.format` would read nothing in it as a field. */
  predicate BraceFree(s: string) {
    forall i :: 0 <= i < |s| ==> s[i] != '{' && s[i] != '}'
  }

  function LowerChar(c: char): char {
    if 'A' <= c <= 'Z' then (c as int + 32) as char else c
  }

  /** `str.lower`, on the ASCII letters. */
  function Lower(s: string): (r: string)
    ensures |r| == |s|
    ensures forall i :: 0 <= i < |s| ==> r[i] == LowerChar(s[i])
  {
    if s == [] then [] else [LowerChar(s[0])] + Lower(s[1..])
  }

  /** Lowering twice is lowering once. */
  lemma LowerIdempotent(s: string)
    ensures Lower(Lower(s)) == Lower(s)
  {
    assert forall i :: 0 <= i < |s| ==> LowerChar(LowerChar(s[i])) == LowerChar(s[i]);
  }

  /** `s.partition(c)[0]`, which is also `s.split(c)[0]`: everything before the
      first `c`, or all of `s` when there is none. */
  function PrefixBefore(s: string, c: char): (r: string)
    ensures r <= s
    ensures c !in r
    ensures |r| < |s| ==> s[|r|] == c
  {
    if s == [] then []
    else if s[0] == c then []
    else [s[0]] + PrefixBefore(s[1..], c)
  }

  /** The three properties of `PrefixBefore` pin its result down: any prefix
      without `c` that stops at `c` or at the end is that result. */
  lemma {:induction false} PrefixBeforeUnique(s: string, c: char, p: string)
    requires p <= s && c !in p && (|p| < |s| ==> s[|p|] == c)
    ensures p == PrefixBefore(s, c)
  {
    if s == [] {
    } else if s[0] == c {
      assert p == s[..|p|];
    } else {
      assert |p| > 0;
      var p' := p[1..];
      assert p' <= s[1..];
      assert forall k :: 0 <= k < |p'| ==> p'[k] == p[k + 1];
      assert |p'| < |s[1..]| ==> s[1..][|p'|] == c;
      PrefixBeforeUnique(s[1..], c, p');
      assert p == [s[0]] + p';
    }
  }

  predicate NoUpper(s: string) {
    forall i :: 0 <= i < |s| ==> !('A' <= s[i] <= 'Z')
  }

  /** Text without capital letters is its own lower case. */
  lemma LowerFixed(s: string)
    requires NoUpper(s)
    ensures Lower(s) == s
  {
  }

  /** A prefix without `c` passes through unchanged. */
  lemma {:induction false} PrefixBeforeConcat(a: string, b: string, c: char)
    requires c !in a
    ensures PrefixBefore(a + b, c) == a + PrefixBefore(b, c)
  {
    if a != [] {
      assert (a + b)[0] == a[0];
      assert (a + b)[1..] == a[1..] + b;
      PrefixBeforeConcat(a[1..], b, c);
      assert a == [a[0]] + a[1..];
    } else {
      assert a + b == b;
    }
  }

  lemma LowerConcat(a: string, b: string)
    ensures Lower(a + b) == Lower(a) + Lower(b)
  {
    assert forall i :: 0 <= i < |a + b| ==> (a + b)[i] == if i < |a| then a[i] else b[i - |a|];
  }

  /** Cutting the lower-cased `a + b` at `c`, where `a` is lower case without `c`,
      keeps all of `a`. */
  lemma PrefixBeforeLowerConcat(a: string, b: string, c: char)
    requires NoUpper(a) && c !in a
    ensures PrefixBefore(Lower(a + b), c) == a + PrefixBefore(Lower(b), c)
  {
    LowerConcat(a, b);
    LowerFixed(a);
    PrefixBeforeConcat(a, Lower(b), c);
  }

  predicate IsDigit(c: char) {
    '0' <= c <= '9'
  }

  function DigitChar(d: nat): (c: char)
    requires d < 10
    ensures IsDigit(c)
  {
    ('0' as int + d) as char
  }

  function DigitValue(c: char): (d: nat)
    requires IsDigit(c)
    ensures d < 10
  {
    c as int - '0' as int
  }

  predicate AllDigits(s: string) {
    forall i :: 0 <= i < |s| ==> IsDigit(s[i])
  }

  /** Decimal digits of `n`, most significant first, without leading zeros. */
  function NatToDecimal(n: nat): (r: string)
    ensures |r| >= 1 && AllDigits(r)
    ensures r[0] == '0' ==> n == 0
  {
    if n < 10 then [DigitChar(n)] else NatToDecimal(n / 10) + [DigitChar(n % 10)]
  }

  /** The number a string of decimal digits denotes. */
  function DecimalValue(s: string): nat
    requires AllDigits(s)
  {
    if s == [] then 0 else DecimalValue(s[..|s| - 1]) * 10 + DigitValue(s[|s| - 1])
  }

  /** Reading back the digits of `n` gives `n`. */
  lemma {:induction false} DecimalRoundTrip(n: nat)
    ensures DecimalValue(NatToDecimal(n)) == n
  {
    if n >= 10 {
      DecimalRoundTrip(n / 10);
      var s := NatToDecimal(n);
      assert s[..|s| - 1] == NatToDecimal(n / 10);
    }
  }

  /** `str(code)` for a Python int. */
  function StatusString(code: int): (r: string)
    ensures |r| >= 1
    ensures r[0] == '-' || IsDigit(r[0])
  {
    if code < 0 then "-" + NatToDecimal(-code) else NatToDecimal(code)
  }

  /** Distinct codes print differently, so an exact status key selects one code. */
  lemma StatusStringInjective(a: int, b: int)
    requires StatusString(a) == StatusString(b)
    ensures a == b
  {
    if a < 0 && b < 0 {
      assert NatToDecimal(-a) == StatusString(a)[1..];
      assert NatToDecimal(-b) == StatusString(b)[1..];
      DecimalRoundTrip(-a);
      DecimalRoundTrip(-b);
    } else if a >= 0 && b >= 0 {
      DecimalRoundTrip(a);
      DecimalRoundTrip(b);
    }
  }

  /** No printed status code is the literal `default` key. */
  lemma StatusNeverDefault(code: int)
    ensures StatusString(code) != "default"
  {
    var s := StatusString(code);
    assert s[0] == '-' || IsDigit(s[0]);
    assert "default"[0] == 'd';
  }
}
